=== FILE: README.md ===
# Chord DHT node: a Dafny model

This project models the node of a small Chord distributed hash table (business/node.py)
and the in-memory test network its unit tests run on (tests/test_node_network.py).

Each node has an m-bit identifier and sits on a ring of 2^m points. It keeps:

- a successor and a predecessor pointer;
- an m-slot finger table, where slot i names the node responsible for start(i) = (id + 2^i) mod 2^m;
- the key/value information it owns.

The model covers the node's operations:

- joining a ring through a bootstrap node: init_finger_table, update_others, update_finger_table;
- key lookup: find_successor, find_predecessor, closest_preceding_node;
- periodic maintenance: stabilize, notify, fix_fingers;
- failure handling: handle_dead_node, find_alive_successor;
- leave;
- the information store: node_has_info, get_information, create_info, remove_info,
  add_information, remove_information.

The project has six modules:

- `Wrappers`: `Option` and `Result`.
- `RingMath`: start, in_range, and clockwise distance on the ring.
- `ChordNode`: a node as an immutable record, plus every step that touches only that node. What a step learns
  from a peer (a lookup reply, a liveness probe, an unreachable peer) arrives as a parameter.
  Python exceptions become errors:
  - `Unreachable` is `grpc.RpcError`, the only exception the node catches;
  - `Crash` is any other exception, such as `in_range` on `None`, a missing node, or an index past the table.
- `MockNetwork`: the test network. A ring maps each registered id to its node, and every remote
  call goes straight to the target node. Each operation is a function from a ring to a new ring or an error.
  Remote calls nest without bound in the source, so the model bounds them with a `fuel` count.
- `ConvergedRing`: the ring every Chord node aims for. There, each finger names the owner of
  its start point, meaning the first node at or after that point going clockwise. The module proves:
  - on such a ring, find_successor returns the key's owner;
  - stabilize and fix_fingers change nothing but their counters;
  - get_information, create_info and remove_info read and write the owner's store.
- `Scenarios`: the assertions of `TestNodeNetwork`.
  - test_join is replayed step by step: 3 joins alone, 7 joins through 3, then 3 and 7 each run fix_fingers and stabilize.
  - The other tests are checked against the converged ring of the seven test nodes.

The model follows the code, including where it departs from the Chord algorithm as published
(Stoica et al., "Chord: A Scalable Peer-to-peer Lookup Service for Internet Applications", SIGCOMM 2001),
and including behaviour that is easy to miss:

- The Chord paper's find_predecessor walks the ring until the key lies between a node and its
  successor. This code only ever consults the local table through closest_preceding_node. It
  therefore returns either the node itself or its closest preceding finger, after at most one
  remote call (`ChordNode.FindPredecessor`, `MockNetwork.FindPredecessorIsOneHop`).
- update_finger_table never updates the successor field, even when it changes slot 0. After
  7 joins in test_join, node 3 still names itself as successor until its next stabilize.
- leave hands the information over only when the successor is truthy and not the node itself.
  A successor with id 0 therefore loses the information (`MockNetwork.LeaveHandsOver`).
- create_info refuses only when the value it finds is truthy. A key stored with the empty string
  counts as absent, so a second create_info overwrites it (`MockNetwork.CreateEmptyThenOverwrite`),
  while any other stored value makes it refuse (`MockNetwork.CreateTwiceRefused`).

## Model

| member | source | states |
|---|---|---|
| RingMath.Start | business/node.py:45-46 | start(i) is a point of the ring, below 2^m |
| RingMath.InRange | business/node.py:73-101 | with distinct ends, the start point is inside exactly when include_start is set, and the end point exactly when include_end is set |
| RingMath.StartIsClockwiseOffset | business/node.py:45-46 | finger i of a node starts exactly 2^i points clockwise from it |
| RingMath.InRangeEqualEnds | business/node.py:82-83 | with equal ends, in_range holds for every key except that point, whatever the flags |
| RingMath.InRangeFlagsAddEndpoints | business/node.py:84-101 | with distinct ends, the two flags add exactly the start and end points to the open interval |
| RingMath.InRangeIsClockwise | business/node.py:73-101 | on the ring, open and half-open in_range mean a clockwise distance from start below (at most) that of end |
| ChordNode.NewNode | business/node.py:13-30 | a new node has no successor, no predecessor, m empty finger slots and no information |
| ChordNode.JoinAlone | business/node.py:37-41 | joining with no bootstrap makes every pointer and finger name the node itself; nothing else changes |
| ChordNode.ClosestPrecedingNode | business/node.py:131-136 | closest_preceding_node answers the node itself or a finger lying strictly in (id, key), nothing else |
| ChordNode.ClosestPrecedingNodeIsHighest | business/node.py:131-136 | closest_preceding_node is the node itself exactly when no finger lies strictly in (id, key); otherwise it is the qualifying finger of highest index |
| ChordNode.FindPredecessorStep | business/node.py:113-129 | from the node's own record, find_predecessor crashes on a missing successor, settles on the node itself, or needs the successor of closest_preceding_node(key), which is then not the node and the key lies outside (id, successor] |
| ChordNode.PredecessorOutcome | business/node.py:119-129 | find_predecessor succeeds exactly when it settles locally or the candidate's lookup returns an id, and then answers the candidate; a failed lookup's error propagates |
| ChordNode.FindPredecessor | business/node.py:113-129 | the loop equals a one-step reference: the node itself, a crash on a missing successor, or the closest preceding finger once its lookup answers; at most one remote call |
| ChordNode.Notify | business/node.py:238-244 | notify sets the predecessor exactly when none is recorded or the candidate lies strictly in (predecessor, id); otherwise nothing changes |
| ChordNode.NotifyIdempotent | business/node.py:238-244 | a second notify with the same candidate changes nothing |
| ChordNode.NotifyMovesPredecessorCloser | business/node.py:240-242 | a replaced predecessor is always strictly further away, counter-clockwise, than its replacement |
| ChordNode.UpdateFinger | business/node.py:67-71 | slot i takes s exactly when it is empty or s lies strictly in (id, finger[i]); only slot i changes; the update is forwarded to the predecessor exactly when it changed a slot and the predecessor is set and not the node |
| ChordNode.UpdateFingerSettles | business/node.py:67-71 | delivering the same update twice changes nothing the second time and forwards nothing |
| ChordNode.FindAliveSuccessor | business/node.py:149-157 | the first finger in table order that is truthy, not the node, and whose probe does not raise grpc.RpcError decides: its probe answered gives that finger, any other exception escapes; with no such finger the node itself; Unreachable never escapes |
| ChordNode.FindAliveReadsTable | business/node.py:149-157 | find_alive_successor depends on nothing but the node's id and finger table |
| ChordNode.ForgetFinger | business/node.py:145-147 | exactly the finger entries equal to the dead node become None |
| ChordNode.HandleDeadNode | business/node.py:138-147 | handle_dead_node fails exactly when the successor is dead and find_alive_successor raises; otherwise a dead successor is replaced by find_alive_successor's pick; a dead predecessor becomes None; the fingers become exactly ForgetFinger of the old table, so none names the dead node and the others are kept |
| ChordNode.DeadSuccessorCanBeReadopted | business/node.py:138-157 | a dead successor that is also finger 0 and passes the locally answered probe is put straight back as successor |
| ChordNode.CrashingProbeEscapes | business/node.py:138-157 | when the first candidate's probe fails with anything but grpc.RpcError, handle_dead_node fails with that error |
| ChordNode.AdoptSuccessor | business/node.py:213-215 | the successor's predecessor x is adopted exactly when it is truthy and lies in (id, successor]; only the successor can change; a truthy x with no successor crashes |
| ChordNode.AdoptedSuccessorIsCloser | business/node.py:213-215 | an adopted successor is never further away going forward than the one it replaces, a node that is its own successor included (its old successor counts as a full turn away) |
| ChordNode.CheckPredecessor | business/node.py:225-232 | an unreachable predecessor is forgotten, a reachable one is kept, a missing one becomes the node itself, and other errors propagate |
| ChordNode.CollapseIfAlone | business/node.py:234-236 | a node that is its own successor and has no predecessor becomes its own predecessor; every other node is left unchanged |
| ChordNode.Stabilize | business/node.py:210-236 | stabilize bumps its counter and keeps fingers and information; when both replies arrive, the successor becomes the adopted node exactly when Adopts holds; after an unreachable successor or an unreachable notify the successor is find_alive_successor's pick for that run, and an error escaping the first run aborts stabilize; any other error from get_predecessor, notify or the predecessor probe aborts it; a missing predecessor becomes the node itself, an answering one is kept, and an unreachable one is forgotten unless the node is then its own successor, in which case it becomes the node itself |
| ChordNode.CrashingProbeEscapesStabilize | business/node.py:210-218 | after an unreachable successor, a first candidate whose probe fails with anything but grpc.RpcError makes stabilize fail with that error |
| ChordNode.FixFinger | business/node.py:203-208 | slot i takes the id a lookup returned, keeps its value on None or an unreachable peer, and any other error aborts; no other slot changes |
| ChordNode.FixFingers | business/node.py:200-208 | fix_fingers succeeds exactly when no lookup fails fatally; each slot then holds its lookup's id when there was one and its old value otherwise, and the counter rises by one |
| ChordNode.NodeHasInfo | business/node.py:246-252 | node_has_info returns a value exactly when the key is stored, and then the stored value |
| ChordNode.AddInformation | business/node.py:312-313 | add_information makes the key read back as the value and leaves every other key as it was |
| ChordNode.RemoveInformation | business/node.py:309-310 | remove_information makes the key read back as missing and leaves every other key as it was |
| MockNetwork.GetPredecessor | tests/test_node_network.py:17-18 | get_predecessor fails exactly for an unregistered id and otherwise returns that node's raw predecessor |
| MockNetwork.SetPredecessor | tests/test_node_network.py:20-21 | set_predecessor changes only the target's predecessor |
| MockNetwork.SetSuccessor | tests/test_node_network.py:23-24 | set_successor changes only the target's successor |
| MockNetwork.DeliverNotify | tests/test_node_network.py:26-27 | the target, and only the target, runs notify |
| MockNetwork.AddInformationAt | presentation/chord_server.py:161-163 | add_information stores the pair at the target only |
| MockNetwork.RingFindSuccessor | business/node.py:103-111 | a node that is its own successor answers itself; a key in (x, successor] is answered with the successor; a missing successor crashes |
| MockNetwork.RingFindPredecessor | business/node.py:113-129 | find_predecessor on a ring answers the node itself or its closest preceding finger |
| MockNetwork.FindPredecessorIsOneHop | business/node.py:113-136 | find_predecessor never walks further than the qualifying finger of highest index |
| MockNetwork.LookupForwards | business/node.py:108-111 | past its successor, find_successor hands the whole lookup to the closest preceding finger once the local lookup of that finger answers |
| MockNetwork.RingJoin | business/node.py:32-43 | join keeps the registered nodes and their shapes; with no bootstrap only the joining node changes, and it becomes a ring of one |
| MockNetwork.RingInitFingerTable | business/node.py:48-59 | a completed init_finger_table leaves finger 0 equal to a set successor |
| MockNetwork.RingTakeSuccessor | business/node.py:49-52 | the new node takes f0 as successor and finger 0 and takes f0's old predecessor; f0 takes it as predecessor; no other node's successor or fingers change; this fails exactly when f0 is unregistered |
| MockNetwork.RingFillFingers | business/node.py:54-58 | filling the table changes only the joining node's fingers, and keeps every slot up to the starting one |
| MockNetwork.RingUpdateOthers | business/node.py:61-65 | update_others keeps the registered nodes and their shapes, changes nothing but finger slots, and every slot it changes names the joining node |
| MockNetwork.UpdateFingerTableOnlyAdds | business/node.py:67-71 | a forwarded update_finger_table(s, i) changes nothing but finger slots, and every slot it changes names s |
| MockNetwork.FindSuccessorRegistered | business/node.py:103-111 | when every recorded successor is registered, a successful find_successor returns a registered node |
| MockNetwork.FillFingersRegistered | business/node.py:54-58 | when every recorded successor and the slots filled so far name registered nodes, the finished table does too |
| MockNetwork.InitFingerTableRegistered | business/node.py:48-59 | init_finger_table keeps every recorded successor registered and leaves every slot of the new table naming a registered node |
| MockNetwork.JoinKeepsPointersRegistered | business/node.py:32-43 | join, with or without a bootstrap, keeps every recorded successor registered and leaves every slot of the joining node naming a registered node |
| MockNetwork.RingUpdateFingerTable | business/node.py:67-71 | forwarding down the predecessor chain changes only slot i of any node, and every changed node ends with slot i = s |
| MockNetwork.RingStabilize | business/node.py:210-236 | stabilize on a ring bumps x's counter, keeps x's fingers and information, and touches no node other than x and its new successor |
| MockNetwork.RingAdoptAndNotify | business/node.py:212-223 | the adopt-and-notify half of stabilize touches no node other than x and its new successor |
| MockNetwork.RingFixFingers | business/node.py:200-208 | fix_fingers on a ring changes only x's fingers and its counter |
| MockNetwork.RingFixFrom | business/node.py:202-208 | each round of the fix_fingers loop changes only x's fingers |
| MockNetwork.HandOver | business/node.py:185-187 | x's information reaches a truthy successor other than x, where it overrides that node's values; otherwise nothing changes |
| MockNetwork.RingLeave | business/node.py:184-198 | leave keeps the registered ids and leaves the leaving node as it was |
| MockNetwork.LeaveSplices | business/node.py:189-198 | after leave, the predecessor's successor is the old successor and the successor's predecessor is the old predecessor |
| MockNetwork.LeaveHandsOver | business/node.py:184-187 | after leave, the successor holds the union of both stores, with the leaving node winning on shared keys; a successor with id 0 gets nothing |
| MockNetwork.RingGetInformation | business/node.py:254-262 | an owner answers from its own store, and a failed lookup propagates its error |
| MockNetwork.RemoveInfoRefused | business/node.py:282-286 | remove_info is refused, changing nothing, when no truthy value is found |
| MockNetwork.RemoveInfoForwards | business/node.py:287-293 | once a truthy value is found, remove_info hands the removal to the owner's remove_info |
| MockNetwork.RingCreateInfo | business/node.py:264-280 | create_info succeeds exactly when no truthy value exists, and then stores the value at find_successor(key) only; otherwise nothing changes |
| MockNetwork.CreateTwiceRefused | business/node.py:264-280 | on a node that is its own successor, a first create_info of a non-empty value stores it and a second create_info for the key is refused and changes nothing |
| MockNetwork.CreateEmptyThenOverwrite | business/node.py:264-280 | a first create_info of the empty string stores it, and a second create_info for the key succeeds and overwrites it |
| MockNetwork.RingRemoveInfo | business/node.py:282-293 | remove_info succeeds exactly when a truthy value exists; when x owns the key, the ring afterwards is exactly x without the key; no node loses any key but this one, and nothing but information changes |
| MockNetwork.RemoveOnSelfSuccessor | business/node.py:282-290 | on a node that is its own successor and holds a truthy value, remove_info returns true and node_has_info then finds nothing |
| MockNetwork.CreateThenRemoveRestores | business/node.py:264-290 | on a node that is its own successor, create_info of a new non-empty value followed by remove_info gives back the original ring |
| ConvergedRing.OwnerUnique | business/node.py:103-111 | every key has at most one owner on the ring |
| ConvergedRing.SuccessorIsNearest | business/node.py:49-50 | the owner of start(0) is the nearest node going forward |
| ConvergedRing.SuccessorInjective | business/node.py:49-50 | no two nodes share the same ideal successor |
| ConvergedRing.AloneWhenOwnSuccessor | business/node.py:105-106 | on a converged ring, a node that is its own successor is the only node and owns every key |
| ConvergedRing.SuccessorOwnsInterval | business/node.py:109-110 | on a converged ring, a successor owns every key in (x, successor] |
| ConvergedRing.FirstFingerIsSuccessor | business/node.py:49-50 | on a converged ring, finger 0 is the successor |
| ConvergedRing.LookupCandidate | business/node.py:121-123 | past the successor, the closest preceding finger is a registered node strictly in (x, key) |
| ConvergedRing.PointersSet | business/node.py:18-19 | on a converged ring, successor and predecessor are set and registered |
| ConvergedRing.ConvergedLookup | business/node.py:103-111 | on a converged ring, find_successor from any node returns the key's owner, given enough fuel |
| ConvergedRing.LookupPastSuccessor | business/node.py:108-111 | the forwarded half of a lookup on a converged ring returns the key's owner |
| ConvergedRing.ConvergedLookupFullTurn | business/node.py:103-111 | with fuel for a full turn of the ring, every lookup on a converged ring succeeds and returns the owner |
| ConvergedRing.ConvergedIgnoresPayload | business/node.py:22-30 | convergence depends only on pointers, not on information or counters |
| ConvergedRing.StabilizeFixesConvergedRing | business/node.py:210-236 | on a converged ring, stabilize changes nothing but its counter |
| ConvergedRing.AdoptAndNotifyOnConvergedRing | business/node.py:212-223 | on a converged ring, adopt-and-notify changes nothing but the counter |
| ConvergedRing.StabilizeKeepsLivePredecessor | business/node.py:225-236 | a registered predecessor survives the rest of stabilize unchanged |
| ConvergedRing.FixFromFixesConvergedRing | business/node.py:202-208 | on a converged ring, the fix_fingers loop rewrites every slot with the value it already holds |
| ConvergedRing.FixFingerFindsOwnSlot | business/node.py:204-206 | on a converged ring, the lookup of start(i) returns finger i itself |
| ConvergedRing.FixFingersFixesConvergedRing | business/node.py:200-208 | on a converged ring, fix_fingers changes nothing but its counter |
| ConvergedRing.SeenFrom | business/node.py:257-262 | what a node sees for a key is the owner's stored value, exactly when the node asks itself |
| ConvergedRing.GetInformationAtOwner | business/node.py:254-258 | the owner finds itself and answers get_information from its own store |
| ConvergedRing.GetInformationReadsOwner | business/node.py:254-262 | on a converged ring, get_information from any node reads the owner's store |
| ConvergedRing.CreateInfoStoresAtOwner | business/node.py:264-280 | on a converged ring, create_info stores the value at the key's owner unless a truthy value is already seen |
| ConvergedRing.RemoveInfoAtOwner | business/node.py:282-290 | remove_info run at the owner removes a truthy stored value there and is refused otherwise |
| ConvergedRing.RemoveInfoDropsAtOwner | business/node.py:282-293 | on a converged ring, remove_info from any node removes the key at its owner exactly when a truthy value is seen |
| ConvergedRing.RemoveInfoViaOwner | business/node.py:287-293 | a remove_info forwarded from x to the owner has the owner's effect |
| ConvergedRing.CreateThenGet | business/node.py:254-280 | after a successful create_info, get_information from any node returns the value |
| ConvergedRing.RemoveThenGet | business/node.py:254-293 | after a successful remove_info, get_information from any node finds nothing |
| ConvergedRing.JoinAloneConverges | business/node.py:37-41 | a node that joins alone forms a converged ring of one |
| Scenarios.IdealRingConverged | tests/test_node_network.py:94-98 | the seven-node ring the maintenance rounds aim at is converged |
| Scenarios.SuccessorOfNineIsTwelve | tests/test_node_network.py:84 | node 7 answers find_successor(9) with 12 |
| Scenarios.PredecessorOfSeventeenIsTwelve | tests/test_node_network.py:100 | node 12 answers find_predecessor(17) with 12 |
| Scenarios.PredecessorOfOneIsThirty | tests/test_node_network.py:101 | node 21 answers find_predecessor(1) with 30 |
| Scenarios.ClosestBeforeSeventeenIsTwelve | tests/test_node_network.py:117 | node 12's closest preceding node for 17 is 12 |
| Scenarios.ClosestBeforeThirtyIsTwentySeven | tests/test_node_network.py:118 | node 21's closest preceding node for 30 is 27 |
| Scenarios.NothingStoredAtTwelve | tests/test_node_network.py:134 | node 12 holds nothing under 14 |
| Scenarios.CreateThenRemoveAtTwentyOne | tests/test_node_network.py:171-179 | create_info(15, "abc") on 21 stores the value at 21, and remove_info(15) on 21 takes it away again |
| Scenarios.TwelveLeaves | tests/test_node_network.py:195-198 | after 12 leaves, 8's successor is 21 and 21's predecessor is 8 |
| Scenarios.ThreeJoinsAlone | tests/test_node_network.py:54-56 | 3 joining alone becomes its own successor and predecessor |
| Scenarios.SevenInitFingerTable | business/node.py:48-59 | init_finger_table(3) on 7 leaves 7 with successor, predecessor and all fingers 3, and 3 with predecessor 7 |
| Scenarios.SevenJoinsThree | tests/test_node_network.py:58 | after 7 joins through 3, 3's first two fingers name 7, its successor is still 3, and 7 points at 3 everywhere |
| Scenarios.SelfSuccessorFixesFrom | business/node.py:105-106 | a node that is its own successor fills its whole table with itself in fix_fingers |
| Scenarios.ThreeFixesFingers | tests/test_node_network.py:60 | 3.fix_fingers() makes every slot of 3 name 3 |
| Scenarios.ThreeStabilizes | tests/test_node_network.py:61 | 3.stabilize() adopts 7 as successor |
| Scenarios.SevenFixesFingers | tests/test_node_network.py:62 | 7.fix_fingers() keeps 7's table |
| Scenarios.SevenStabilizes | tests/test_node_network.py:63 | 7.stabilize() keeps 3 as successor |
| Scenarios.TestJoin | tests/test_node_network.py:52-68 | every call of test_join succeeds, and 3 and 7 end as each other's successor and predecessor |

## Left out

- The transports (gRPC stubs, the Docker and Kubernetes networks, chord_server) and the main scripts
  are left out. The model's network is the test network, which never raises grpc.RpcError (it raises
  KeyError for an unregistered or None id, modelled as `Crash`); a failing peer is modelled as a transport that raises
  grpc.RpcError, the `Unreachable` error, or as a `probe` or reply parameter.
- The shipped transports do not raise grpc.RpcError. They catch it, call handle_dead_node(target) on the
  calling node and return None (presentation/chord_client_stub.py:34-36, presentation/docker_network.py:56-58,
  presentation/kubernetes_network.py:119-120). So in deployment the node's own `except grpc.RpcError`
  branches are not reached; a failed call rewrites the caller's successor, predecessor and fingers in the
  middle of stabilize or fix_fingers and then continues with None. That interleaving is not modelled:
  ChordNode.Stabilize keeping the fingers and ChordNode.FixFinger keeping a slot on an unreachable peer
  hold for a transport that raises, not for these transports.
- The state a node keeps after an exception it does not catch is not modelled: the error result
  discards it. The source keeps its partial writes. For instance init_finger_table sets finger 0 and the
  successor (business/node.py:50-51) before get_predecessor fails on an unregistered id, and stabilize
  bumps its counter (business/node.py:211) before in_range on a missing successor raises.
- start_background_tasks is left out: its thread runs stabilize and fix_fingers forever and sleeps between rounds.
- Logging and the print_* helpers are left out, and with them the `lookups` counter and `join_time`,
  which only print_stats reads (business/node.py:177, business/node.py:180).
- redundant_information, add_redundant_info and remove_redundant_info are left out. create_info only mentions them in a comment.
- The network interface's add_information is modelled as the RPC server's handler: it stores at the target.
  The test network does not define it, and business/node_network_interface.py is not part of this model.
- Remote calls nest without bound in the source. The model bounds them with `fuel`, and running out is the error `OutOfFuel`.
  The lemmas state how much fuel suffices, but not that the source's lookups always terminate.
- The maintenance rounds before the seven-node tests are not replayed: m = 5 rounds in test_find_successor
  (tests/test_node_network.py:78) and 11 rounds in the later tests.
  Those tests start from the converged ring (`Scenarios.IdealRingConverged`). For
  `Scenarios.SuccessorOfNineIsTwelve` this assumes that five rounds already converge the ring.
  The converged ring is proved to be a fixed point of stabilize and fix_fingers. test_join is replayed in full.
- MockNetwork.RingUpdateOthers: states which changes are possible (finger slots, to the joining node), not which
  slots do change. That is proved only in the test_join scenario (`Scenarios.SevenJoinsThree`), because a general
  statement needs the ring's state mid-join.
- MockNetwork.RingJoin: only the bootstrap-free branch is stated exactly. For the bootstrap branch, every ring is
  covered only as far as `MockNetwork.JoinKeepsPointersRegistered` goes; its exact result is covered in test_join.
- MockNetwork.RingInitFingerTable: states only that finger 0 is the successor, and, for every ring, that every slot is
  registered (`MockNetwork.InitFingerTableRegistered`). The filled table is proved for test_join.
- MockNetwork.RingFillFingers: does not state which node each later slot receives, only that it is registered
  (`MockNetwork.FillFingersRegistered`).
- MockNetwork.RingFindSuccessor: does not state, for an arbitrary ring, which node the forwarded lookup returns.
  On a converged ring that is `ConvergedRing.ConvergedLookup`.
- MockNetwork.RingGetInformation: the remote branch is stated only on converged rings (`ConvergedRing.GetInformationReadsOwner`).
- MockNetwork.RingStabilize: does not state x's new successor and predecessor for an arbitrary ring.
- MockNetwork.RingLeave: the splice and hand-over are stated only when both neighbours are registered and differ from x.
- ConvergedRing.SeenFrom: does not state that a remote "None" string reads as a missing value.

=== FILE: chord_node.dfy ===
/**
 * One Chord node of business/node.py as an immutable record, and every protocol
 * step that reads or writes only that record. Whatever the node learns from a
 * peer arrives as a parameter (a reply), so each step is a pure function.
 */
module ChordNode {
  import opened Wrappers
  import opened RingMath

  /** How a step or a transport call can end without a value. */
  datatype Error =
    | Unreachable  // the peer did not answer: grpc.RpcError, the only exception the node catches
    | Crash        // any other Python exception: int(None) inside in_range, a missing registry entry, an index past the table
    | OutOfFuel    // the model's bound on nested remote calls ran out

  /**
   * The fields of a Node: id, m, successor, predecessor, the m-slot finger table,
   * the owned key/value information, and the stabilization and finger-fix counters.
   */
  datatype NodeState = NodeState(
    id: nat,
    m: nat,
    successor: Option<nat>,
    predecessor: Option<nat>,
    fingers: seq<Option<nat>>,
    info: map<nat, string>,
    stabilizations: nat,
    fingerFixes: nat)

  /** The finger table has one slot per bit of the identifier space. */
  predicate WellFormed(n: NodeState) {
    |n.fingers| == n.m
  }

  /** Same identity and same table shape; every step keeps this. */
  predicate SameShape(a: NodeState, b: NodeState) {
    a.id == b.id && a.m == b.m && |a.fingers| == |b.fingers|
  }

  /** Python truthiness of an optional id: `None` and the id 0 are both false. */
  predicate Truthy(p: Option<nat>) {
    p.Some? && p.value != 0
  }

  /** Node(node_id, m, network): no pointers, an empty table, no information. */
  function NewNode(id: nat, m: nat): (n: NodeState)
    ensures WellFormed(n) && n.id == id && n.m == m
    ensures n.successor.None? && n.predecessor.None? && n.info == map[]
    ensures forall i | 0 <= i < m :: n.fingers[i].None?
  {
    NodeState(id, m, None, None, seq(m, _ => None), map[], 0, 0)
  }

  // ---------------------------------------------------------------- join(None)

  /** Every pointer of the node names the node itself: a ring of one. */
  predicate IsAlone(n: NodeState) {
    && n.successor == Some(n.id)
    && n.predecessor == Some(n.id)
    && forall i | 0 <= i < |n.fingers| :: n.fingers[i] == Some(n.id)
  }

  /** join without a bootstrap node: the node becomes a ring of one. */
  function JoinAlone(n: NodeState): (r: NodeState)
    requires WellFormed(n)
    ensures IsAlone(r) && SameShape(n, r)
    ensures r.info == n.info && r.stabilizations == n.stabilizations && r.fingerFixes == n.fingerFixes
  {
    n.(successor := Some(n.id), predecessor := Some(n.id), fingers := seq(n.m, _ => Some(n.id)))
  }

  // ---------------------------------------------------- closest_preceding_node

  /** Finger i qualifies for closest_preceding_node(key): it is set and strictly inside (id, key). */
  predicate Precedes(n: NodeState, key: int, i: nat)
    requires i < |n.fingers|
  {
    n.fingers[i].Some? && InRange(n.fingers[i].value, n.id, key, false, false)
  }

  /** The scan of closest_preceding_node over slots k-1 down to 0. */
  function ScanDown(n: NodeState, key: int, k: nat): nat
    requires k <= |n.fingers|
  {
    if k == 0 then n.id
    else if Precedes(n, key, k - 1) then n.fingers[k - 1].value
    else ScanDown(n, key, k - 1)
  }

  /**
   * closest_preceding_node(key): the qualifying finger of highest index, or the node
   * itself when no finger lies strictly between the node and the key.
   */
  function ClosestPrecedingNode(n: NodeState, key: int): (r: nat)
    ensures r != n.id ==> exists i | 0 <= i < |n.fingers| :: Precedes(n, key, i) && n.fingers[i] == Some(r)
  {
    ScanDownFindsHighest(n, key, |n.fingers|);
    ScanDown(n, key, |n.fingers|)
  }

  /** The scan over slots below k settles on the highest qualifying one, or on the node itself. */
  lemma {:induction false} ScanDownFindsHighest(n: NodeState, key: int, k: nat)
    requires k <= |n.fingers|
    ensures (forall j | 0 <= j < k :: !Precedes(n, key, j)) ==> ScanDown(n, key, k) == n.id
    ensures (exists j | 0 <= j < k :: Precedes(n, key, j)) ==>
              exists i | 0 <= i < k ::
                && Precedes(n, key, i)
                && n.fingers[i] == Some(ScanDown(n, key, k))
                && forall j | i < j < k :: !Precedes(n, key, j)
  {
    if k > 0 && !Precedes(n, key, k - 1) {
      ScanDownFindsHighest(n, key, k - 1);
    }
  }

  /**
   * closest_preceding_node returns the node itself exactly when no finger qualifies, and
   * otherwise the qualifying finger of highest index (which is never the node itself,
   * since a qualifying finger lies strictly after it).
   */
  lemma ClosestPrecedingNodeIsHighest(n: NodeState, key: int)
    ensures (forall j | 0 <= j < |n.fingers| :: !Precedes(n, key, j)) ==> ClosestPrecedingNode(n, key) == n.id
    ensures (exists j | 0 <= j < |n.fingers| :: Precedes(n, key, j)) ==>
              && ClosestPrecedingNode(n, key) != n.id
              && exists i | 0 <= i < |n.fingers| ::
                   && Precedes(n, key, i)
                   && n.fingers[i] == Some(ClosestPrecedingNode(n, key))
                   && forall j | i < j < |n.fingers| :: !Precedes(n, key, j)
  {
    ScanDownFindsHighest(n, key, |n.fingers|);
    if exists j | 0 <= j < |n.fingers| :: Precedes(n, key, j) {
      var i :| 0 <= i < |n.fingers| && Precedes(n, key, i) && n.fingers[i] == Some(ClosestPrecedingNode(n, key));
      InRangeEqualEnds(n.id, n.id, false, false);
      if n.id != key {
        assert InRange(n.fingers[i].value, n.id, key, false, false);
      }
    }
  }

  // ---------------------------------------------------------- find_predecessor

  /**
   * What find_predecessor(key) can decide from the node's own record:
   * the answer, a crash, or the one candidate whose successor it must ask for.
   */
  datatype PredecessorStep = Settled(node: nat) | Fails | NeedsSuccessorOf(candidate: nat)

  function FindPredecessorStep(n: NodeState, key: int): (r: PredecessorStep)
    ensures n.successor.None? ==> r == Fails
    ensures r.Settled? ==> r.node == n.id
    ensures r.NeedsSuccessorOf? ==>
              && r.candidate == ClosestPrecedingNode(n, key)
              && r.candidate != n.id
              && n.successor.Some?
              && !InRange(key, n.id, n.successor.value, false, true)
  {
    match n.successor
    case None => Fails  // in_range(key, id, None) raises
    case Some(s) =>
      if s == n.id then Settled(n.id)
      else if InRange(key, n.id, s, false, true) then Settled(n.id)
      else
        var c := ClosestPrecedingNode(n, key);
        if c == n.id then Settled(n.id) else NeedsSuccessorOf(c)
  }

  /** Finishes find_predecessor once the candidate's lookup has answered. */
  function PredecessorOutcome(step: PredecessorStep, answer: Result<Option<nat>, Error>): (r: Result<nat, Error>)
    ensures r.Ok? <==> step.Settled? || (step.NeedsSuccessorOf? && answer.Ok? && answer.value.Some?)
    ensures r.Ok? && step.NeedsSuccessorOf? ==> r.value == step.candidate
    ensures step.NeedsSuccessorOf? && answer.Err? ==> r == Err(answer.error)
  {
    match step
    case Settled(p) => Ok(p)
    case Fails => Err(Crash)
    case NeedsSuccessorOf(c) =>
      match answer
      case Err(e) => Err(e)
      case Ok(None) => Err(Crash)  // in_range(key, c, None) raises
      case Ok(Some(_)) => Ok(c)
  }

  /** A lookup that returns an id, seen as a transport reply that may carry None. */
  function AsReply(r: Result<nat, Error>): Result<Option<nat>, Error> {
    match r
    case Ok(v) => Ok(Some(v))
    case Err(e) => Err(e)
  }

  /**
   * find_predecessor(key) as the loop of business/node.py:113-129. `ask(c)` is the reply
   * to `network.find_successor(self.node_id, c)`. Because closest_preceding_node reads
   * the local table only, the walk asks at most once and answers the node itself or the
   * closest preceding finger; `calls` counts the remote calls.
   */
  method FindPredecessor(n: NodeState, key: int, ask: nat -> Result<Option<nat>, Error>)
      returns (r: Result<nat, Error>, calls: nat)
    ensures r == PredecessorOutcome(FindPredecessorStep(n, key), ask(ClosestPrecedingNode(n, key)))
    ensures calls <= 1 && calls <= n.m + 1
    ensures r.Ok? ==>
              || r.value == n.id
              || exists i | 0 <= i < |n.fingers| :: Precedes(n, key, i) && n.fingers[i] == Some(r.value)
  {
    calls := 0;
    if n.successor == Some(n.id) {
      return Ok(n.id), calls;
    }
    var cur := n.id;
    var succ := n.successor;
    var iterations := 0;
    while true
      invariant iterations <= 1 && calls == iterations
      invariant iterations == 0 ==> cur == n.id && succ == n.successor
      invariant iterations == 1 ==>
                  && FindPredecessorStep(n, key) == NeedsSuccessorOf(cur)
                  && ask(cur) == Ok(succ)
      decreases n.m + 1 - iterations
    {
      if succ.None? {
        return Err(Crash), calls;
      }
      if InRange(key, cur, succ.value, false, true) || iterations >= n.m + 1 {
        break;
      }
      var prev := cur;
      cur := ClosestPrecedingNode(n, key);
      if cur == prev {
        break;
      }
      var answer := ask(cur);
      calls := calls + 1;
      if answer.Err? {
        return Err(answer.error), calls;
      }
      succ := answer.value;
      iterations := iterations + 1;
    }
    ClosestPrecedingNodeIsHighest(n, key);
    return Ok(cur), calls;
  }

  // -------------------------------------------------------------------- notify

  /** notify(c) would take c as predecessor: none is recorded, or c is strictly inside (predecessor, id). */
  predicate AcceptsPredecessor(n: NodeState, c: nat) {
    n.predecessor.None? || InRange(c, n.predecessor.value, n.id, false, false)
  }

  /** notify(c): the only way a node's predecessor moves. Nothing else changes. */
  function Notify(n: NodeState, c: nat): (r: NodeState)
    ensures AcceptsPredecessor(n, c) ==> r == n.(predecessor := Some(c))
    ensures !AcceptsPredecessor(n, c) ==> r == n
  {
    if AcceptsPredecessor(n, c) then n.(predecessor := Some(c)) else n
  }

  /** A second notify with the same candidate changes nothing. */
  lemma NotifyIdempotent(n: NodeState, c: nat)
    ensures Notify(Notify(n, c), c) == Notify(n, c)
  {
    var r := Notify(n, c);
    if AcceptsPredecessor(n, c) {
      InRangeEqualEnds(c, c, false, false);
      assert !AcceptsPredecessor(r, c);
    }
  }

  /**
   * When notify replaces a recorded predecessor p, the new one is strictly closer to the
   * node going clockwise: the predecessor pointer only ever moves forward.
   */
  lemma NotifyMovesPredecessorCloser(n: NodeState, c: nat, size: nat)
    requires n.id < size && c < size && n.predecessor.Some? && n.predecessor.value < size
    requires Notify(n, c) != n
    ensures Notify(n, c).predecessor == Some(c)
    ensures Gap(c, n.id, size) < Gap(n.predecessor.value, n.id, size)
  {
    var p := n.predecessor.value;
    if p != n.id {
      InRangeIsClockwise(c, p, n.id, size);
    }
  }

  // ------------------------------------------------------- update_finger_table

  /** update_finger_table(s, i) replaces slot i: it is empty, or s lies strictly inside (id, finger[i]). */
  predicate ImprovesFinger(n: NodeState, s: nat, i: nat)
    requires i < |n.fingers|
  {
    n.fingers[i].None? || InRange(s, n.id, n.fingers[i].value, false, false)
  }

  /**
   * The local half of update_finger_table(s, i): the new record, and the node the same
   * update is forwarded to (the predecessor, only after a change, never the node itself).
   */
  function UpdateFinger(n: NodeState, s: nat, i: nat): (r: (NodeState, Option<nat>))
    requires i < |n.fingers|
    ensures SameShape(n, r.0)
    ensures r.0.fingers[i] == (if ImprovesFinger(n, s, i) then Some(s) else n.fingers[i])
    ensures forall j | 0 <= j < |n.fingers| && j != i :: r.0.fingers[j] == n.fingers[j]
    ensures r.0 == n.(fingers := r.0.fingers)
    ensures r.1.Some? <==> ImprovesFinger(n, s, i) && n.predecessor.Some? && n.predecessor.value != n.id
    ensures r.1.Some? ==> r.1 == n.predecessor
  {
    if ImprovesFinger(n, s, i) then
      var n1 := n.(fingers := n.fingers[i := Some(s)]);
      if n.predecessor.Some? && n.predecessor.value != n.id then (n1, n.predecessor) else (n1, None)
    else (n, None)
  }

  /** Delivering the same update twice: the second delivery changes nothing and is not forwarded. */
  lemma UpdateFingerSettles(n: NodeState, s: nat, i: nat)
    requires i < |n.fingers|
    ensures UpdateFinger(UpdateFinger(n, s, i).0, s, i) == (UpdateFinger(n, s, i).0, None)
  {
    var n1 := UpdateFinger(n, s, i).0;
    InRangeEqualEnds(s, s, false, false);
    assert n1.fingers[i].Some?;
    assert !ImprovesFinger(n1, s, i);
  }

  // ----------------------------------------------- find_alive_successor and failure

  /** A probe: what `network.find_successor(self.node_id, c)` does for a candidate c. */
  type Probe = nat -> Result<Option<nat>, Error>

  /** Slot j is worth probing in find_alive_successor: a truthy id other than the node's own. */
  predicate Candidate(n: NodeState, j: nat)
    requires j < |n.fingers|
  {
    Truthy(n.fingers[j]) && n.fingers[j].value != n.id
  }

  /**
   * Slot j ends find_alive_successor: a candidate whose probe does not raise grpc.RpcError.
   * The probe's request goes to the local node, not to the candidate, and its answer is
   * discarded: an answer makes the candidate the result, any error but Unreachable escapes.
   */
  predicate Decides(n: NodeState, probe: Probe, j: nat)
    requires j < |n.fingers|
  {
    Candidate(n, j) && probe(n.fingers[j].value) != Err(Unreachable)
  }

  /** Slot i is the first slot that ends find_alive_successor. */
  predicate FirstDecides(n: NodeState, probe: Probe, i: nat) {
    i < |n.fingers| && Decides(n, probe, i) && forall j | 0 <= j < i :: !Decides(n, probe, j)
  }

  /** How find_alive_successor ends at a deciding slot: the candidate, or the probe's error. */
  function Outcome(n: NodeState, probe: Probe, i: nat): Result<nat, Error>
    requires i < |n.fingers| && Decides(n, probe, i)
  {
    var c := n.fingers[i].value;
    if probe(c).Ok? then Ok(c) else Err(probe(c).error)
  }

  function ScanUp(n: NodeState, probe: Probe, k: nat): (r: Result<nat, Error>)
    requires k <= |n.fingers|
    requires forall j | 0 <= j < k :: !Decides(n, probe, j)
    ensures (forall j | k <= j < |n.fingers| :: !Decides(n, probe, j)) ==> r == Ok(n.id)
    ensures (exists j | k <= j < |n.fingers| :: Decides(n, probe, j)) ==>
              exists i | k <= i < |n.fingers| :: FirstDecides(n, probe, i) && r == Outcome(n, probe, i)
    decreases |n.fingers| - k
  {
    if k == |n.fingers| then Ok(n.id)
    else if Candidate(n, k) then
      match probe(n.fingers[k].value)
      case Ok(_) => assert FirstDecides(n, probe, k); Ok(n.fingers[k].value)
      case Err(Unreachable) => ScanUp(n, probe, k + 1)
      case Err(e) => assert FirstDecides(n, probe, k); Err(e)
    else ScanUp(n, probe, k + 1)
  }

  /**
   * find_alive_successor: walk the table in order, skipping empty slots, the node itself and
   * candidates whose probe is unreachable. The first candidate whose probe answers is the
   * result; a probe failing in any other way aborts; with neither, the node itself.
   */
  function FindAliveSuccessor(n: NodeState, probe: Probe): (r: Result<nat, Error>)
    ensures (forall j | 0 <= j < |n.fingers| :: !Decides(n, probe, j)) ==> r == Ok(n.id)
    ensures (exists j | 0 <= j < |n.fingers| :: Decides(n, probe, j)) ==>
              exists i: nat :: FirstDecides(n, probe, i) && r == Outcome(n, probe, i)
    ensures r.Ok? && r.value != n.id ==> r.value != 0 && probe(r.value).Ok?
    ensures r.Err? ==> r.error != Unreachable
  {
    ScanUp(n, probe, 0)
  }

  /** find_alive_successor reads nothing of the node but its id and finger table. */
  lemma FindAliveReadsTable(a: NodeState, b: NodeState, probe: Probe)
    requires a.id == b.id && a.fingers == b.fingers
    ensures FindAliveSuccessor(a, probe) == FindAliveSuccessor(b, probe)
  {
    var ra, rb := FindAliveSuccessor(a, probe), FindAliveSuccessor(b, probe);
    assert forall j | 0 <= j < |a.fingers| :: Decides(a, probe, j) == Decides(b, probe, j);
    if j :| 0 <= j < |a.fingers| && Decides(a, probe, j) {
      assert Decides(b, probe, j);
      var i: nat :| FirstDecides(a, probe, i) && ra == Outcome(a, probe, i);
      var i': nat :| FirstDecides(b, probe, i') && rb == Outcome(b, probe, i');
      assert i == i';
    }
  }

  /** finger_table with every entry equal to `dead` replaced by None. */
  function ForgetFinger(fingers: seq<Option<nat>>, dead: nat): (r: seq<Option<nat>>)
    ensures |r| == |fingers|
    ensures forall i | 0 <= i < |fingers| :: r[i] == (if fingers[i] == Some(dead) then None else fingers[i])
  {
    seq(|fingers|, i requires 0 <= i < |fingers| => if fingers[i] == Some(dead) then None else fingers[i])
  }

  /**
   * handle_dead_node(dead): a successor equal to `dead` is replaced by find_alive_successor,
   * run on the table BEFORE the dead entries are cleared; a predecessor equal to `dead`
   * becomes None; exactly the finger entries equal to `dead` become None. An error escaping
   * find_alive_successor aborts before anything is written.
   */
  function HandleDeadNode(n: NodeState, dead: nat, probe: Probe): (r: Result<NodeState, Error>)
    ensures r.Err? <==> n.successor == Some(dead) && FindAliveSuccessor(n, probe).Err?
    ensures r.Err? ==> r.error != Unreachable
    ensures r.Ok? ==> SameShape(n, r.value) && r.value.info == n.info
    ensures r.Ok? && n.successor != Some(dead) ==> r.value.successor == n.successor
    ensures r.Ok? && n.successor == Some(dead) ==> r.value.successor == Some(FindAliveSuccessor(n, probe).value)
    ensures r.Ok? ==> r.value.predecessor == (if n.predecessor == Some(dead) then None else n.predecessor)
    ensures r.Ok? ==> r.value.fingers == ForgetFinger(n.fingers, dead)
    ensures r.Ok? ==> forall i | 0 <= i < |n.fingers| ::
              && r.value.fingers[i] != Some(dead)
              && (n.fingers[i] != Some(dead) ==> r.value.fingers[i] == n.fingers[i])
  {
    var n1 :- if n.successor == Some(dead) then ReplaceSuccessor(n, probe) else Ok(n);
    var predecessor := if n.predecessor == Some(dead) then None else n.predecessor;
    Ok(n1.(predecessor := predecessor, fingers := ForgetFinger(n.fingers, dead)))
  }

  /** `self.successor = self.find_alive_successor()`: nothing else changes, and an escaping error aborts. */
  function ReplaceSuccessor(n: NodeState, probe: Probe): (r: Result<NodeState, Error>)
    ensures r.Ok? <==> FindAliveSuccessor(n, probe).Ok?
    ensures r.Ok? ==> r.value == n.(successor := Some(FindAliveSuccessor(n, probe).value))
    ensures r.Err? ==> r.error == FindAliveSuccessor(n, probe).error
  {
    var s :- FindAliveSuccessor(n, probe);
    Ok(n.(successor := Some(s)))
  }

  /**
   * Failure recovery does not necessarily remove a dead successor: when the dead node is
   * also the first finger and the probe (answered by the local node) succeeds for it,
   * handle_dead_node puts it straight back as the successor.
   */
  lemma DeadSuccessorCanBeReadopted(n: NodeState, dead: nat, probe: Probe)
    requires |n.fingers| > 0 && n.fingers[0] == Some(dead) && n.successor == Some(dead)
    requires dead != 0 && dead != n.id && probe(dead).Ok?
    ensures HandleDeadNode(n, dead, probe).Ok?
    ensures HandleDeadNode(n, dead, probe).value.successor == Some(dead)
  {
    assert FirstDecides(n, probe, 0);
  }

  /**
   * A probe failing with anything but grpc.RpcError escapes handle_dead_node: when the
   * first candidate's probe crashes, so does the whole call.
   */
  lemma CrashingProbeEscapes(n: NodeState, dead: nat, probe: Probe, e: Error)
    requires |n.fingers| > 0 && Candidate(n, 0) && n.successor == Some(dead)
    requires e != Unreachable && probe(n.fingers[0].value) == Err(e)
    ensures HandleDeadNode(n, dead, probe) == Err(e)
  {
    assert FirstDecides(n, probe, 0);
  }

  // ---------------------------------------------------------------- stabilize

  /** stabilize adopts the successor's predecessor x: x is truthy and lies in (id, successor]. */
  predicate Adopts(n: NodeState, x: Option<nat>)
    requires n.successor.Some?
  {
    Truthy(x) && InRange(x.value, n.id, n.successor.value, false, true)
  }

  /**
   * The answered half of stabilize's first step (business/node.py:213-215): x is what
   * get_predecessor(successor) returned. Only the successor can change.
   */
  function AdoptSuccessor(n: NodeState, x: Option<nat>): (r: Result<NodeState, Error>)
    ensures r.Err? <==> Truthy(x) && n.successor.None?
    ensures r.Ok? ==> r.value == n.(successor := r.value.successor)
    ensures r.Ok? && n.successor.Some? && Adopts(n, x) ==> r.value.successor == x
    ensures r.Ok? && n.successor.Some? && !Adopts(n, x) ==> r.value.successor == n.successor
    ensures r.Ok? && n.successor.None? ==> r.value == n
  {
    if !Truthy(x) then Ok(n)
    else
      match n.successor
      case None => Err(Crash)  // in_range(x, id, None) raises
      case Some(s) => if InRange(x.value, n.id, s, false, true) then Ok(n.(successor := x)) else Ok(n)
  }

  /**
   * An adopted successor is never further away going forward than the one it replaces;
   * for a node that is its own successor, the one it replaces is a full turn away.
   */
  lemma AdoptedSuccessorIsCloser(n: NodeState, x: Option<nat>, size: nat)
    requires n.id < size && n.successor.Some? && n.successor.value < size
    requires x.Some? && x.value < size && Adopts(n, x)
    ensures AdoptSuccessor(n, x) == Ok(n.(successor := x))
    ensures 0 < Dist(n.id, x.value, size)
    ensures Gap(n.id, x.value, size) <= Gap(n.id, n.successor.value, size)
  {
    if n.successor.value != n.id {
      InRangeIsClockwise(x.value, n.id, n.successor.value, size);
    }
  }

  /**
   * The predecessor check of stabilize (business/node.py:225-232). `reply` is the answer to
   * get_predecessor(predecessor), consulted only when a predecessor is recorded: an
   * unreachable predecessor is forgotten, and a missing one is set to the node itself.
   */
  function CheckPredecessor(n: NodeState, reply: Result<Option<nat>, Error>): (r: Result<NodeState, Error>)
    ensures r.Ok? ==> r.value == n.(predecessor := r.value.predecessor)
    ensures n.predecessor.None? ==> r == Ok(n.(predecessor := Some(n.id)))
    ensures n.predecessor.Some? && reply.Ok? ==> r == Ok(n)
    ensures n.predecessor.Some? && reply == Err(Unreachable) ==> r == Ok(n.(predecessor := None))
    ensures n.predecessor.Some? && reply.Err? && reply.error != Unreachable ==> r == Err(reply.error)
  {
    if n.predecessor.Some? then
      match reply
      case Ok(_) => Ok(n)
      case Err(Unreachable) => Ok(n.(predecessor := None))
      case Err(e) => Err(e)
    else Ok(n.(predecessor := Some(n.id)))
  }

  /** The last step of stabilize: a node that is its own successor with no other predecessor is alone. */
  function CollapseIfAlone(n: NodeState): (r: NodeState)
    ensures r == n.(predecessor := r.predecessor)
    ensures n.successor == Some(n.id) && (n.predecessor.None? || n.predecessor == Some(n.id)) ==>
              r.predecessor == Some(n.id)
    ensures !(n.successor == Some(n.id) && n.predecessor.None?) ==> r == n
  {
    if n.successor == Some(n.id) && (n.predecessor.None? || n.predecessor == Some(n.id)) then
      n.(predecessor := Some(n.id), successor := Some(n.id))
    else n
  }

  /**
   * stabilize() with every reply as a parameter: `succPred` answers get_predecessor(successor),
   * `notified` is the outcome of notify(successor, id), `predReply` answers the probe of the
   * predecessor. find_alive_successor may run twice, once after an unreachable successor and
   * once after an unreachable notify, with the successor changed in between; `lookupProbe`
   * and `notifyProbe` drive those two runs. Only Unreachable is caught.
   * The notify a node sends to itself when it is its own successor changes nothing this
   * function does not already do, so the record it returns is exact in that case too as
   * long as the node's calls to itself do not raise: in the source such a notify can set
   * a missing predecessor, and the probe of that predecessor is then a call that could fail.
   */
  function Stabilize(n: NodeState, succPred: Result<Option<nat>, Error>, notified: Result<(), Error>,
                     predReply: Result<Option<nat>, Error>, lookupProbe: Probe, notifyProbe: Probe)
    : (r: Result<NodeState, Error>)
    ensures r.Ok? ==>
              && r.value.stabilizations == n.stabilizations + 1
              && r.value.fingers == n.fingers && r.value.info == n.info
              && r.value.id == n.id && r.value.m == n.m && r.value.fingerFixes == n.fingerFixes
    ensures r.Ok? && n.successor.Some? ==> r.value.successor.Some?
    ensures r.Ok? && r.value.successor == Some(n.id) ==> r.value.predecessor.Some?
    ensures r.Ok? && succPred.Ok? && notified.Ok? && n.successor.Some? && Adopts(n, succPred.value) ==>
              r.value.successor == succPred.value
    ensures r.Ok? && succPred.Ok? && notified.Ok? && n.successor.Some? && !Adopts(n, succPred.value) ==>
              r.value.successor == n.successor
    ensures r.Ok? && succPred == Err(Unreachable) && notified.Ok? ==>
              && FindAliveSuccessor(n, lookupProbe).Ok?
              && r.value.successor == Some(FindAliveSuccessor(n, lookupProbe).value)
    ensures r.Ok? && notified == Err(Unreachable) ==>
              && FindAliveSuccessor(n, notifyProbe).Ok?
              && r.value.successor == Some(FindAliveSuccessor(n, notifyProbe).value)
    ensures succPred == Err(Unreachable) && FindAliveSuccessor(n, lookupProbe).Err? ==>
              r == Err(FindAliveSuccessor(n, lookupProbe).error)
    ensures succPred.Err? && succPred.error != Unreachable ==> r == Err(succPred.error)
    ensures notified.Err? && notified.error != Unreachable ==> r.Err?
    ensures succPred.Ok? && n.successor.Some? && notified.Err? && notified.error != Unreachable ==>
              r == Err(notified.error)
    ensures n.predecessor.Some? && predReply.Err? && predReply.error != Unreachable ==> r.Err?
    ensures r.Ok? && n.predecessor.None? ==> r.value.predecessor == Some(n.id)
    ensures r.Ok? && n.predecessor.Some? && predReply.Ok? ==> r.value.predecessor == n.predecessor
    ensures r.Ok? && n.predecessor.Some? && predReply == Err(Unreachable) ==>
              r.value.predecessor == if r.value.successor == Some(n.id) then Some(n.id) else None
  {
    var n1 := n.(stabilizations := n.stabilizations + 1);
    FindAliveReadsTable(n, n1, lookupProbe);
    var n2 :- match succPred
              case Ok(x) => AdoptSuccessor(n1, x)
              case Err(Unreachable) => ReplaceSuccessor(n1, lookupProbe)
              case Err(e) => Err(e);
    FindAliveReadsTable(n, n2, notifyProbe);
    var n3 :- match notified
              case Ok(_) => Ok(n2)
              case Err(Unreachable) => ReplaceSuccessor(n2, notifyProbe)
              case Err(e) => Err(e);
    var n4 :- CheckPredecessor(n3, predReply);
    Ok(CollapseIfAlone(n4))
  }

  /**
   * After an unreachable successor, a probe of the first candidate that fails with anything
   * but grpc.RpcError escapes stabilize. A node with no successor is an instance: its local
   * lookup of the candidate reaches in_range with end None.
   */
  lemma CrashingProbeEscapesStabilize(n: NodeState, notified: Result<(), Error>, predReply: Result<Option<nat>, Error>,
                                      lookupProbe: Probe, notifyProbe: Probe, e: Error)
    requires |n.fingers| > 0 && Candidate(n, 0)
    requires e != Unreachable && lookupProbe(n.fingers[0].value) == Err(e)
    ensures Stabilize(n, Err(Unreachable), notified, predReply, lookupProbe, notifyProbe) == Err(e)
  {
    assert FirstDecides(n, lookupProbe, 0);
  }

  // -------------------------------------------------------------- fix_fingers

  /**
   * One slot of fix_fingers: `reply` answers the lookup of start(i). Slot i is overwritten
   * only by an id the lookup actually returned; None or an unreachable peer keeps it.
   */
  function FixFinger(n: NodeState, i: nat, reply: Result<Option<nat>, Error>): (r: Result<NodeState, Error>)
    requires i < |n.fingers|
    ensures r.Ok? <==> reply.Ok? || reply == Err(Unreachable)
    ensures r.Ok? ==> r.value == n.(fingers := r.value.fingers) && |r.value.fingers| == |n.fingers|
    ensures r.Ok? ==> forall j | 0 <= j < |n.fingers| && j != i :: r.value.fingers[j] == n.fingers[j]
    ensures r.Ok? ==> r.value.fingers[i] == (if reply.Ok? && reply.value.Some? then reply.value else n.fingers[i])
  {
    match reply
    case Ok(Some(v)) => Ok(n.(fingers := n.fingers[i := Some(v)]))
    case Ok(None) => Ok(n)
    case Err(Unreachable) => Ok(n)
    case Err(e) => Err(e)
  }

  /** The lookup answer makes fix_fingers stop: an exception other than grpc.RpcError. */
  predicate Fatal(reply: Result<Option<nat>, Error>) {
    reply.Err? && reply.error != Unreachable
  }

  /**
   * fix_fingers() over the whole table; `answer(i)` is the reply to the lookup of start(i).
   * Each slot ends as the lookup's id when there was one and as before otherwise; the
   * finger-fix counter rises by one; the first fatal answer aborts the call.
   */
  method FixFingers(n: NodeState, answer: nat -> Result<Option<nat>, Error>) returns (r: Result<NodeState, Error>)
    requires WellFormed(n)
    ensures r.Ok? <==> forall i | 0 <= i < n.m :: !Fatal(answer(i))
    ensures r.Err? ==> exists i | 0 <= i < n.m :: Fatal(answer(i)) && r.error == answer(i).error
    ensures r.Ok? ==>
              && WellFormed(r.value)
              && r.value == n.(fingers := r.value.fingers, fingerFixes := n.fingerFixes + 1)
              && forall i | 0 <= i < n.m ::
                   r.value.fingers[i] == (if answer(i).Ok? && answer(i).value.Some? then answer(i).value else n.fingers[i])
  {
    var cur := n.(fingerFixes := n.fingerFixes + 1);
    var i := 0;
    while i < n.m
      invariant 0 <= i <= n.m
      invariant cur == n.(fingers := cur.fingers, fingerFixes := n.fingerFixes + 1)
      invariant |cur.fingers| == n.m
      invariant forall j | 0 <= j < i :: !Fatal(answer(j))
      invariant forall j | 0 <= j < i ::
                  cur.fingers[j] == (if answer(j).Ok? && answer(j).value.Some? then answer(j).value else n.fingers[j])
      invariant forall j | i <= j < n.m :: cur.fingers[j] == n.fingers[j]
    {
      var next := FixFinger(cur, i, answer(i));
      if next.Err? {
        return Err(next.error);
      }
      cur := next.value;
      i := i + 1;
    }
    return Ok(cur);
  }

  // ------------------------------------------------------------- information

  /** node_has_info(key): the locally stored value, if any. */
  function NodeHasInfo(n: NodeState, key: nat): (r: Option<string>)
    ensures r.Some? <==> key in n.info
    ensures r.Some? ==> r.value == n.info[key]
  {
    if key in n.info then Some(n.info[key]) else None
  }

  /** add_information(key, value): store or overwrite locally. */
  function AddInformation(n: NodeState, key: nat, value: string): (r: NodeState)
    ensures NodeHasInfo(r, key) == Some(value)
    ensures forall k | k != key :: NodeHasInfo(r, k) == NodeHasInfo(n, k)
    ensures r == n.(info := r.info)
  {
    n.(info := n.info[key := value])
  }

  /** remove_information(key): drop the key locally, if present. */
  function RemoveInformation(n: NodeState, key: nat): (r: NodeState)
    ensures NodeHasInfo(r, key) == None
    ensures forall k | k != key :: NodeHasInfo(r, k) == NodeHasInfo(n, k)
    ensures r == n.(info := r.info)
  {
    n.(info := n.info - {key})
  }

  /** A stored value counts as present for create_info/remove_info only if it is truthy. */
  predicate Present(v: Option<string>) {
    v.Some? && v.value != ""
  }
}

=== FILE: converged_ring.dfy ===
/**
 * The state the maintenance loop of business/node.py drives a ring towards, and what
 * the protocol does once it is there. Every pointer names the node responsible for
 * its start point: the successor owns start(0), finger i owns start(i), and the
 * predecessor is the node whose successor this node is. On such a ring find_successor
 * returns the owner of the key, stabilize and fix_fingers change nothing but their
 * counters, and stored information is found again from every node.
 */
module ConvergedRing {
  import opened Wrappers
  import opened RingMath
  import opened ChordNode
  import opened MockNetwork

  /** o owns key: o is one of the ids, and the first of them met going clockwise from key (key included). */
  predicate IsOwner(ids: set<nat>, key: int, o: nat, size: nat) {
    o in ids && forall y | y in ids :: Dist(key, o, size) <= Dist(key, y, size)
  }

  /** Every registered id is a point of the ring [0, size). */
  predicate IdsBelow(ids: set<nat>, size: nat) {
    forall y | y in ids :: y < size
  }

  /** Node x of the ring has the pointers Chord intends for it. */
  predicate IdealPointers(ring: Ring, x: nat, m: nat)
    requires x in ring
  {
    var n := ring[x];
    && n.m == m
    && n.successor.Some? && IsOwner(ring.Keys, Start(x, 0, m), n.successor.value, Pow2(m))
    && (forall i | 0 <= i < |n.fingers| ::
          n.fingers[i].Some? && IsOwner(ring.Keys, Start(x, i, m), n.fingers[i].value, Pow2(m)))
    && n.predecessor.Some? && n.predecessor.value in ring
    && IsOwner(ring.Keys, Start(n.predecessor.value, 0, m), x, Pow2(m))
  }

  /** A converged m-bit ring: a registry of ids below 2^m whose every node has its intended pointers. */
  predicate Converged(ring: Ring, m: nat) {
    && Registry(ring)
    && IdsBelow(ring.Keys, Pow2(m))
    && forall x {:trigger IdealPointers(ring, x, m)} | x in ring :: IdealPointers(ring, x, m)
  }

  /** Same identity and the same three kinds of pointer; information and counters may differ. */
  predicate SamePointers(a: NodeState, b: NodeState) {
    && a.id == b.id && a.m == b.m
    && a.successor == b.successor && a.predecessor == b.predecessor && a.fingers == b.fingers
  }

  // ------------------------------------------------------------------ ownership

  /** Each key has at most one owner. */
  lemma OwnerUnique(ids: set<nat>, key: int, o1: nat, o2: nat, size: nat)
    requires IdsBelow(ids, size) && 0 <= key < size
    requires IsOwner(ids, key, o1, size) && IsOwner(ids, key, o2, size)
    ensures o1 == o2
  {
    DistInjective(key, o1, o2, size);
  }

  /** Owning start(0) of x means being the first id strictly after x, going clockwise. */
  lemma SuccessorIsNearest(ids: set<nat>, x: nat, s: nat, m: nat)
    requires IdsBelow(ids, Pow2(m)) && x < Pow2(m)
    requires IsOwner(ids, Start(x, 0, m), s, Pow2(m))
    ensures s in ids && forall y | y in ids :: Gap(x, s, Pow2(m)) <= Gap(x, y, Pow2(m))
  {
    forall y | y in ids
      ensures Gap(x, s, Pow2(m)) <= Gap(x, y, Pow2(m))
    {
      DistFromNext(x, s, m);
      DistFromNext(x, y, m);
    }
  }

  /** Two different ids never have the same successor. */
  lemma SuccessorInjective(ids: set<nat>, a: nat, b: nat, s: nat, m: nat)
    requires IdsBelow(ids, Pow2(m)) && a in ids && b in ids
    requires IsOwner(ids, Start(a, 0, m), s, Pow2(m)) && IsOwner(ids, Start(b, 0, m), s, Pow2(m))
    ensures a == b
  {
    var size := Pow2(m);
    SuccessorIsNearest(ids, a, s, m);
    SuccessorIsNearest(ids, b, s, m);
    if a != b {
      assert Gap(a, s, size) <= Gap(a, b, size);
      assert Gap(b, s, size) <= Gap(b, a, size);
      DistBounds(a, b, size);
      DistBounds(b, a, size);
      DistSplit(a, b, s, size);
      DistSplit(a, s, b, size);
      assert false;
    }
  }

  /** A node that is its own successor is alone on the ring and owns every key. */
  lemma AloneWhenOwnSuccessor(ring: Ring, m: nat, x: nat)
    requires Converged(ring, m) && x in ring && ring[x].successor == Some(x)
    ensures ring.Keys == {x}
    ensures forall key | 0 <= key < Pow2(m) :: IsOwner(ring.Keys, key, x, Pow2(m))
  {
    assert IdealPointers(ring, x, m);
    SuccessorIsNearest(ring.Keys, x, x, m);
    forall y | y in ring
      ensures y == x
    {
      DistBounds(x, y, Pow2(m));
    }
  }

  /** The keys in (x, successor] belong to the successor. */
  lemma SuccessorOwnsInterval(ring: Ring, m: nat, x: nat, key: int)
    requires Converged(ring, m) && x in ring
    requires ring[x].successor.Some? && ring[x].successor.value != x
    requires 0 <= key < Pow2(m) && InRange(key, x, ring[x].successor.value, false, true)
    ensures IsOwner(ring.Keys, key, ring[x].successor.value, Pow2(m))
  {
    var size := Pow2(m);
    var s := ring[x].successor.value;
    assert IdealPointers(ring, x, m);
    SuccessorIsNearest(ring.Keys, x, s, m);
    InRangeIsClockwise(key, x, s, size);
    DistSplit(x, key, s, size);
    forall y | y in ring
      ensures Dist(key, s, size) <= Dist(key, y, size)
    {
      DistSplit(x, key, y, size);
      DistBounds(x, y, size);
    }
  }

  /** Finger 0 and the successor both own start(0), so they coincide. */
  lemma FirstFingerIsSuccessor(ring: Ring, m: nat, x: nat)
    requires Converged(ring, m) && x in ring && m > 0
    ensures |ring[x].fingers| > 0 && ring[x].fingers[0] == ring[x].successor
  {
    assert IdealPointers(ring, x, m);
    var n := ring[x];
    OwnerUnique(ring.Keys, Start(x, 0, m), n.fingers[0].value, n.successor.value, Pow2(m));
  }

  // --------------------------------------------------------------------- lookup

  /**
   * When the key lies outside (x, successor], the successor itself is a finger strictly
   * between x and the key, so find_predecessor must ask about its closest preceding finger.
   */
  lemma LookupCandidate(ring: Ring, m: nat, x: nat, key: int) returns (c: nat)
    requires Converged(ring, m) && x in ring && 0 <= key < Pow2(m)
    requires ring[x].successor.Some? && ring[x].successor.value != x
    requires !InRange(key, x, ring[x].successor.value, false, true)
    ensures c == ClosestPrecedingNode(ring[x], key)
    ensures FindPredecessorStep(ring[x], key) == NeedsSuccessorOf(c)
    ensures c in ring && c != x && InRange(c, x, key, false, false)
  {
    var n := ring[x];
    assert IdealPointers(ring, x, m);
    var s := n.successor.value;
    assert m > 0 by {
      assert Pow2(0) == 1;
    }
    FirstFingerIsSuccessor(ring, m, x);
    InRangeIsClockwise(key, x, s, Pow2(m));
    assert Precedes(n, key, 0);
    c := ClosestPrecedingNode(n, key);
    ClosestPrecedingNodeIsHighest(n, key);
    var i :| 0 <= i < |n.fingers| && Precedes(n, key, i) && n.fingers[i] == Some(c);
    assert IsOwner(ring.Keys, Start(x, i, m), n.fingers[i].value, Pow2(m));
  }


  /** A node of a converged ring has a registered successor and predecessor. */
  lemma PointersSet(ring: Ring, m: nat, x: nat)
    requires Converged(ring, m) && x in ring
    ensures ring[x].successor.Some? && ring[x].successor.value in ring
    ensures ring[x].predecessor.Some? && ring[x].predecessor.value in ring
  {
    assert IdealPointers(ring, x, m);
  }

  /**
   * find_successor is correct on a converged ring: from any node, any key of the ring
   * is answered with its owner, given fuel for as many nested calls as the forward
   * distance from the node to the key.
   */
  lemma {:induction false} ConvergedLookup(ring: Ring, m: nat, x: nat, key: int, fuel: nat) returns (o: nat)
    requires Converged(ring, m) && x in ring && 0 <= key < Pow2(m)
    requires fuel >= Gap(x, key, Pow2(m))
    ensures RingFindSuccessor(ring, x, key, fuel) == Ok(o)
    ensures IsOwner(ring.Keys, key, o, Pow2(m))
    decreases Gap(x, key, Pow2(m)), 1
  {
    PointersSet(ring, m, x);
    var s := ring[x].successor.value;
    if s == x {
      AloneWhenOwnSuccessor(ring, m, x);
      o := x;
    } else if InRange(key, x, s, false, true) {
      SuccessorOwnsInterval(ring, m, x, key);
      o := s;
    } else {
      o := LookupPastSuccessor(ring, m, x, key, fuel);
    }
  }

  /**
   * The lookup step past the successor: x first looks up its closest preceding finger c,
   * then c answers for the key; both are strictly nearer their targets than x was.
   */
  lemma {:induction false} LookupPastSuccessor(ring: Ring, m: nat, x: nat, key: int, fuel: nat) returns (o: nat)
    requires Converged(ring, m) && x in ring && 0 <= key < Pow2(m)
    requires fuel >= Gap(x, key, Pow2(m))
    requires ring[x].successor.Some? && ring[x].successor.value != x
    requires !InRange(key, x, ring[x].successor.value, false, true)
    ensures RingFindSuccessor(ring, x, key, fuel) == Ok(o)
    ensures IsOwner(ring.Keys, key, o, Pow2(m))
    decreases Gap(x, key, Pow2(m)), 0
  {
    var c := LookupCandidate(ring, m, x, key);
    GapsShrink(x, c, key, Pow2(m));
    var cOwner := ConvergedLookup(ring, m, x, c, fuel - 1);
    o := ConvergedLookup(ring, m, c, key, fuel - 1);
    LookupForwards(ring, x, key, fuel, c, cOwner, o);
  }

  /** With fuel for a full turn, every lookup from every node returns the key's owner. */
  lemma ConvergedLookupFullTurn(ring: Ring, m: nat, x: nat, key: int, fuel: nat)
    requires Converged(ring, m) && x in ring && 0 <= key < Pow2(m) && fuel >= Pow2(m)
    ensures RingFindSuccessor(ring, x, key, fuel).Ok?
    ensures IsOwner(ring.Keys, key, RingFindSuccessor(ring, x, key, fuel).value, Pow2(m))
  {
    DistBounds(x, key, Pow2(m));
    var _ := ConvergedLookup(ring, m, x, key, fuel);
  }

  // ----------------------------------------------------------------- fixpoints

  /** A node's intended pointers depend only on the registered ids and its own pointers. */
  lemma IdealPointersTransfer(ring: Ring, ring': Ring, y: nat, m: nat)
    requires y in ring && y in ring' && ring'.Keys == ring.Keys
    requires SamePointers(ring[y], ring'[y]) && IdealPointers(ring, y, m)
    ensures IdealPointers(ring', y, m)
  {
  }

  /** Keeping every node's pointers keeps the registry well formed. */
  lemma RegistryTransfer(ring: Ring, ring': Ring)
    requires Registry(ring)
    requires ring'.Keys == ring.Keys && forall y | y in ring :: SamePointers(ring[y], ring'[y])
    ensures Registry(ring')
  {
    forall y | y in ring'
      ensures ring'[y].id == y && WellFormed(ring'[y])
    {
      assert SamePointers(ring[y], ring'[y]);
    }
  }

  /** Being converged depends on the registered ids and the pointers only. */
  lemma ConvergedIgnoresPayload(ring: Ring, ring': Ring, m: nat)
    requires Converged(ring, m)
    requires ring'.Keys == ring.Keys && forall y | y in ring :: SamePointers(ring[y], ring'[y])
    ensures Converged(ring', m)
  {
    RegistryTransfer(ring, ring');
    forall y | y in ring'
      ensures IdealPointers(ring', y, m)
    {
      assert IdealPointers(ring, y, m);
      IdealPointersTransfer(ring, ring', y, m);
    }
  }

  /** stabilize on a converged ring only counts itself. */
  lemma StabilizeFixesConvergedRing(ring: Ring, m: nat, x: nat)
    requires Converged(ring, m) && x in ring
    ensures RingStabilize(ring, x) == Ok(ring[x := ring[x].(stabilizations := ring[x].stabilizations + 1)])
  {
    PointersSet(ring, m, x);
    var n' := ring[x].(stabilizations := ring[x].stabilizations + 1);
    AdoptAndNotifyOnConvergedRing(ring, m, x);
    assert ring[x := n'][x] == n';
    StabilizeKeepsLivePredecessor(ring, x, ring[x := n']);
  }

  /** On a converged ring the first half of stabilize adopts nothing and notifies to no effect. */
  lemma AdoptAndNotifyOnConvergedRing(ring: Ring, m: nat, x: nat)
    requires Converged(ring, m) && x in ring
    ensures RingAdoptAndNotify(ring, x) == Ok(ring[x := ring[x].(stabilizations := ring[x].stabilizations + 1)])
  {
    var n := ring[x].(stabilizations := ring[x].stabilizations + 1);
    assert IdealPointers(ring, x, m);
    var s := n.successor.value;
    var ring1 := ring[x := n];
    if s == x {
      AloneWhenOwnSuccessor(ring, m, x);
      assert n.predecessor == Some(x);
      InRangeEqualEnds(x, x, false, true);
      InRangeEqualEnds(x, x, false, false);
      assert AdoptSuccessor(n, Some(x)) == Ok(n);
      assert Notify(n, x) == n;
      assert ring1[x := n] == ring1;
    } else {
      assert IdealPointers(ring, s, m);
      var p := ring[s].predecessor.value;
      SuccessorInjective(ring.Keys, x, p, s, m);
      assert GetPredecessor(ring, n.successor) == Ok(Some(x));
      assert !InRange(x, x, s, false, true);
      assert AdoptSuccessor(n, Some(x)) == Ok(n);
      assert !AcceptsPredecessor(ring1[s], x);
      assert Notify(ring1[s], x) == ring1[s];
      assert ring1[s := ring1[s]] == ring1;
    }
  }

  /**
   * Once the first half of stabilize has run, a registered predecessor answers the probe,
   * so the predecessor is kept and nothing else changes.
   */
  lemma StabilizeKeepsLivePredecessor(ring: Ring, x: nat, ring1: Ring)
    requires Registry(ring) && x in ring && RingAdoptAndNotify(ring, x) == Ok(ring1)
    requires ring1[x].predecessor.Some? && ring1[x].predecessor.value in ring1
    ensures RingStabilize(ring, x) == Ok(ring1)
  {
    var n1 := ring1[x];
    assert CheckPredecessor(n1, GetPredecessor(ring1, n1.predecessor)) == Ok(n1);
    assert CollapseIfAlone(n1) == n1;
    assert ring1[x := n1] == ring1;
  }

  /** Each slot fix_fingers looks up is already the answer it gets. */
  lemma {:induction false} FixFromFixesConvergedRing(ring: Ring, m: nat, x: nat, i: nat, fuel: nat)
    requires Converged(ring, m) && x in ring && fuel >= Pow2(m)
    ensures RingFixFrom(ring, x, i, fuel) == Ok(ring)
    decreases m - i
  {
    assert IdealPointers(ring, x, m);
    if i < m {
      FixFingerFindsOwnSlot(ring, m, x, i, fuel);
      assert ring[x := ring[x]] == ring;
      FixFromFixesConvergedRing(ring, m, x, i + 1, fuel);
    }
  }

  /** On a converged ring, the lookup fix_fingers makes for slot i answers what the slot holds. */
  lemma FixFingerFindsOwnSlot(ring: Ring, m: nat, x: nat, i: nat, fuel: nat)
    requires Converged(ring, m) && x in ring && fuel >= Pow2(m) && i < m
    ensures i < |ring[x].fingers|
    ensures FixFinger(ring[x], i, AsReply(RingFindSuccessor(ring, x, Start(x, i, m), fuel))) == Ok(ring[x])
  {
    var n := ring[x];
    assert IdealPointers(ring, x, m);
    var k := Start(x, i, m);
    ConvergedLookupFullTurn(ring, m, x, k, fuel);
    var o := RingFindSuccessor(ring, x, k, fuel).value;
    OwnerUnique(ring.Keys, k, o, n.fingers[i].value, Pow2(m));
    assert n.fingers[i := Some(o)] == n.fingers;
  }

  /** fix_fingers on a converged ring only counts itself. */
  lemma FixFingersFixesConvergedRing(ring: Ring, m: nat, x: nat, fuel: nat)
    requires Converged(ring, m) && x in ring && fuel >= Pow2(m)
    ensures RingFixFingers(ring, x, fuel) == Ok(ring[x := ring[x].(fingerFixes := ring[x].fingerFixes + 1)])
  {
    var ring' := ring[x := ring[x].(fingerFixes := ring[x].fingerFixes + 1)];
    ConvergedIgnoresPayload(ring, ring', m);
    FixFromFixesConvergedRing(ring', m, x, 0, fuel);
  }

  // ---------------------------------------------------------------- information

  /** What get_information reports from node x when o owns the key: o's value, with "None" read as missing off-node. */
  function SeenFrom(ring: Ring, x: nat, o: nat, key: nat): (r: Option<string>)
    requires o in ring
    ensures x == o ==> r == NodeHasInfo(ring[o], key)
    ensures r.Some? ==> r == NodeHasInfo(ring[o], key)
  {
    var v := NodeHasInfo(ring[o], key);
    if x != o && v == Some("None") then None else v
  }

  /** get_information asked at the owner itself answers from its own store. */
  lemma GetInformationAtOwner(ring: Ring, m: nat, o: nat, key: nat, fuel: nat)
    requires Converged(ring, m) && key < Pow2(m) && fuel >= Pow2(m) && IsOwner(ring.Keys, key, o, Pow2(m))
    ensures RingFindSuccessor(ring, o, key, fuel) == Ok(o)
    ensures RingGetInformation(ring, o, key, fuel) == Ok(NodeHasInfo(ring[o], key))
  {
    ConvergedLookupFullTurn(ring, m, o, key, fuel);
    OwnerUnique(ring.Keys, key, o, RingFindSuccessor(ring, o, key, fuel).value, Pow2(m));
  }

  /** get_information from any node reads the owner's store. */
  lemma GetInformationReadsOwner(ring: Ring, m: nat, x: nat, o: nat, key: nat, fuel: nat)
    requires Converged(ring, m) && x in ring && key < Pow2(m) && fuel > Pow2(m)
    requires IsOwner(ring.Keys, key, o, Pow2(m))
    ensures RingFindSuccessor(ring, x, key, fuel) == Ok(o)
    ensures RingGetInformation(ring, x, key, fuel) == Ok(SeenFrom(ring, x, o, key))
  {
    ConvergedLookupFullTurn(ring, m, x, key, fuel);
    OwnerUnique(ring.Keys, key, o, RingFindSuccessor(ring, x, key, fuel).value, Pow2(m));
    GetInformationAtOwner(ring, m, o, key, fuel - 1);
  }

  /** create_info on a converged ring: refused when a truthy value is seen, else stored at the owner. */
  lemma CreateInfoStoresAtOwner(ring: Ring, m: nat, x: nat, o: nat, key: nat, value: string, fuel: nat)
    requires Converged(ring, m) && x in ring && key < Pow2(m) && fuel > Pow2(m)
    requires IsOwner(ring.Keys, key, o, Pow2(m))
    ensures RingCreateInfo(ring, x, key, value, fuel) ==
              if Present(SeenFrom(ring, x, o, key)) then Ok((ring, false))
              else Ok((ring[o := AddInformation(ring[o], key, value)], true))
  {
    GetInformationReadsOwner(ring, m, x, o, key, fuel);
  }

  /** remove_info asked at the owner: refused when nothing truthy is stored, else the owner drops the key. */
  lemma RemoveInfoAtOwner(ring: Ring, m: nat, o: nat, key: nat, fuel: nat)
    requires Converged(ring, m) && key < Pow2(m) && fuel >= Pow2(m) && IsOwner(ring.Keys, key, o, Pow2(m))
    ensures RingRemoveInfo(ring, o, key, fuel) ==
              if Present(NodeHasInfo(ring[o], key)) then Ok((ring[o := RemoveInformation(ring[o], key)], true))
              else Ok((ring, false))
  {
    GetInformationAtOwner(ring, m, o, key, fuel);
  }

  /** remove_info from any node: refused when nothing truthy is seen, else the owner drops the key. */
  lemma RemoveInfoDropsAtOwner(ring: Ring, m: nat, x: nat, o: nat, key: nat, fuel: nat)
    requires Converged(ring, m) && x in ring && key < Pow2(m) && fuel > Pow2(m)
    requires IsOwner(ring.Keys, key, o, Pow2(m))
    ensures RingRemoveInfo(ring, x, key, fuel) ==
              if Present(SeenFrom(ring, x, o, key)) then Ok((ring[o := RemoveInformation(ring[o], key)], true))
              else Ok((ring, false))
  {
    if x == o {
      RemoveInfoAtOwner(ring, m, o, key, fuel);
    } else {
      RemoveInfoFromElsewhere(ring, m, x, o, key, fuel);
    }
  }

  /** The case of RemoveInfoDropsAtOwner where the asking node is not the owner. */
  lemma RemoveInfoFromElsewhere(ring: Ring, m: nat, x: nat, o: nat, key: nat, fuel: nat)
    requires Converged(ring, m) && x in ring && key < Pow2(m) && fuel > Pow2(m)
    requires IsOwner(ring.Keys, key, o, Pow2(m)) && x != o
    ensures RingRemoveInfo(ring, x, key, fuel) ==
              if Present(SeenFrom(ring, x, o, key)) then Ok((ring[o := RemoveInformation(ring[o], key)], true))
              else Ok((ring, false))
  {
    assert RingFindSuccessor(ring, x, key, fuel) == Ok(o) &&
           RingGetInformation(ring, x, key, fuel) == Ok(SeenFrom(ring, x, o, key)) by {
      GetInformationReadsOwner(ring, m, x, o, key, fuel);
    }
    assert RingRemoveInfo(ring, o, key, fuel - 1) ==
             if Present(NodeHasInfo(ring[o], key)) then Ok((ring[o := RemoveInformation(ring[o], key)], true))
             else Ok((ring, false)) by {
      RemoveInfoAtOwner(ring, m, o, key, fuel - 1);
    }
    RemoveInfoViaOwner(ring, x, o, key, fuel);
  }

  /**
   * remove_info from x once x's lookup has named o: the outcome is o's own remove_info
   * whenever x sees a truthy value, and a refusal otherwise.
   */
  lemma RemoveInfoViaOwner(ring: Ring, x: nat, o: nat, key: nat, fuel: nat)
    requires Registry(ring) && x in ring && o in ring && x != o && fuel > 0
    requires RingFindSuccessor(ring, x, key, fuel) == Ok(o)
    requires RingGetInformation(ring, x, key, fuel) == Ok(SeenFrom(ring, x, o, key))
    requires RingRemoveInfo(ring, o, key, fuel - 1) ==
               if Present(NodeHasInfo(ring[o], key)) then Ok((ring[o := RemoveInformation(ring[o], key)], true))
               else Ok((ring, false))
    ensures RingRemoveInfo(ring, x, key, fuel) ==
              if Present(SeenFrom(ring, x, o, key)) then Ok((ring[o := RemoveInformation(ring[o], key)], true))
              else Ok((ring, false))
  {
    var v := SeenFrom(ring, x, o, key);
    if Present(v) {
      RemoveInfoForwards(ring, x, key, fuel, o, v, ring[o := RemoveInformation(ring[o], key)]);
    } else {
      RemoveInfoRefused(ring, x, key, fuel, v);
    }
  }

  /**
   * Round trip: once create_info has stored a value, get_information from every node
   * returns it (a value spelled "None" is the one exception off the owner).
   */
  lemma CreateThenGet(ring: Ring, m: nat, x: nat, y: nat, key: nat, value: string, fuel: nat)
    requires Converged(ring, m) && x in ring && y in ring && key < Pow2(m) && fuel > Pow2(m)
    requires value != "None"
    ensures RingCreateInfo(ring, x, key, value, fuel).Ok?
    ensures var (ring', created) := RingCreateInfo(ring, x, key, value, fuel).value;
            created ==> RingGetInformation(ring', y, key, fuel) == Ok(Some(value))
  {
    ConvergedLookupFullTurn(ring, m, x, key, fuel);
    var o := RingFindSuccessor(ring, x, key, fuel).value;
    CreateInfoStoresAtOwner(ring, m, x, o, key, value, fuel);
    var ring' := ring[o := AddInformation(ring[o], key, value)];
    ConvergedIgnoresPayload(ring, ring', m);
    GetInformationReadsOwner(ring', m, y, o, key, fuel);
  }

  /** Round trip: once remove_info has succeeded, get_information from every node finds nothing. */
  lemma RemoveThenGet(ring: Ring, m: nat, x: nat, y: nat, key: nat, fuel: nat)
    requires Converged(ring, m) && x in ring && y in ring && key < Pow2(m) && fuel > Pow2(m)
    ensures RingRemoveInfo(ring, x, key, fuel).Ok?
    ensures var (ring', removed) := RingRemoveInfo(ring, x, key, fuel).value;
            removed ==> RingGetInformation(ring', y, key, fuel) == Ok(None)
  {
    ConvergedLookupFullTurn(ring, m, x, key, fuel);
    var o := RingFindSuccessor(ring, x, key, fuel).value;
    RemoveInfoDropsAtOwner(ring, m, x, o, key, fuel);
    var ring' := ring[o := RemoveInformation(ring[o], key)];
    ConvergedIgnoresPayload(ring, ring', m);
    GetInformationReadsOwner(ring', m, y, o, key, fuel);
  }

  // ------------------------------------------------------------------- join

  /** A node that joins with no bootstrap node forms a converged ring of one. */
  lemma JoinAloneConverges(ring: Ring, m: nat, x: nat, fuel: nat)
    requires Registry(ring) && ring.Keys == {x} && ring[x].m == m && x < Pow2(m)
    ensures RingJoin(ring, x, None, fuel).Ok?
    ensures Converged(RingJoin(ring, x, None, fuel).value, m)
  {
    var ring' := RingJoin(ring, x, None, fuel).value;
    assert ring'.Keys == {x};
    assert IdealPointers(ring', x, m);
  }
}

=== FILE: mock_network.dfy ===
/**
 * The in-memory test network of tests/test_node_network.py: a registry from id to
 * node through which every transport call goes straight to the target node. A ring
 * is the registry's contents; each protocol operation of business/node.py becomes a
 * function from a ring to a new ring (or an error), composed from the node-local
 * steps of ChordNode. Remote calls nest without bound in the source, so nesting is
 * bounded here by `fuel`; running out is reported as OutOfFuel.
 */
module MockNetwork {
  import opened Wrappers
  import opened RingMath
  import opened ChordNode

  type Ring = map<nat, NodeState>

  /** register_node files each node under its own id; Node() gives it an m-slot table. */
  predicate Registry(ring: Ring) {
    forall x | x in ring :: ring[x].id == x && WellFormed(ring[x])
  }

  /** Same registered ids, and each node keeps its identity and table shape. */
  predicate SameNodes(ring: Ring, ring': Ring) {
    ring'.Keys == ring.Keys && forall x | x in ring :: SameShape(ring[x], ring'[x])
  }

  /** Only node t may differ between the two rings. */
  predicate OnlyChanges(ring: Ring, ring': Ring, t: nat) {
    ring'.Keys == ring.Keys && forall y | y in ring && y != t :: ring'[y] == ring[y]
  }

  /** Replacing one node by one of the same shape keeps the registry well formed. */
  lemma PutKeepsRegistry(ring: Ring, x: nat, n: NodeState)
    requires Registry(ring) && x in ring && SameShape(ring[x], n)
    ensures Registry(ring[x := n]) && SameNodes(ring, ring[x := n])
  {
  }

  // ---------------------------------------------------- transport dispatch

  /** `self.nodes[t]`: a missing or None id raises KeyError. */
  function Target(ring: Ring, t: Option<nat>): (r: Result<nat, Error>)
    ensures r.Ok? <==> t.Some? && t.value in ring
    ensures r.Ok? ==> t == Some(r.value)
    ensures r.Err? ==> r.error == Crash
  {
    if t.Some? && t.value in ring then Ok(t.value) else Err(Crash)
  }

  /** get_predecessor(t): the raw predecessor field, which may be None. */
  function GetPredecessor(ring: Ring, t: Option<nat>): (r: Result<Option<nat>, Error>)
    ensures r.Ok? <==> t.Some? && t.value in ring
    ensures r.Ok? ==> r.value == ring[t.value].predecessor
  {
    var x :- Target(ring, t);
    Ok(ring[x].predecessor)
  }

  /** set_predecessor(t, p): a field write on t. */
  function SetPredecessor(ring: Ring, t: Option<nat>, p: Option<nat>): (r: Result<Ring, Error>)
    ensures r.Ok? <==> t.Some? && t.value in ring
    ensures r.Ok? ==> OnlyChanges(ring, r.value, t.value)
    ensures r.Ok? ==> r.value[t.value] == ring[t.value].(predecessor := p)
  {
    var x :- Target(ring, t);
    Ok(ring[x := ring[x].(predecessor := p)])
  }

  /** set_successor(t, s): a field write on t. */
  function SetSuccessor(ring: Ring, t: Option<nat>, s: Option<nat>): (r: Result<Ring, Error>)
    ensures r.Ok? <==> t.Some? && t.value in ring
    ensures r.Ok? ==> OnlyChanges(ring, r.value, t.value)
    ensures r.Ok? ==> r.value[t.value] == ring[t.value].(successor := s)
  {
    var x :- Target(ring, t);
    Ok(ring[x := ring[x].(successor := s)])
  }

  /** notify(t, c): t runs notify(c). */
  function DeliverNotify(ring: Ring, t: Option<nat>, c: nat): (r: Result<Ring, Error>)
    ensures r.Ok? <==> t.Some? && t.value in ring
    ensures r.Ok? ==> OnlyChanges(ring, r.value, t.value)
    ensures r.Ok? ==> r.value[t.value] == Notify(ring[t.value], c)
  {
    var x :- Target(ring, t);
    Ok(ring[x := Notify(ring[x], c)])
  }

  /** add_information(t, key, value): stores the pair at t, as the RPC server does. */
  function AddInformationAt(ring: Ring, t: nat, key: nat, value: string): (r: Result<Ring, Error>)
    ensures r.Ok? <==> t in ring
    ensures r.Ok? ==> OnlyChanges(ring, r.value, t) && r.value[t] == AddInformation(ring[t], key, value)
  {
    if t in ring then Ok(ring[t := AddInformation(ring[t], key, value)]) else Err(Crash)
  }

  // ------------------------------------------------------------------ lookup

  /**
   * find_successor(key) run on node x. A node that is its own successor answers itself;
   * a key inside (x, successor] is answered with the successor; otherwise the lookup
   * moves to the node find_predecessor named.
   */
  function RingFindSuccessor(ring: Ring, x: nat, key: int, fuel: nat): (r: Result<nat, Error>)
    requires Registry(ring)
    ensures x !in ring || ring[x].successor.None? ==> r == Err(Crash)
    ensures x in ring && ring[x].successor == Some(x) ==> r == Ok(x)
    ensures x in ring && ring[x].successor.Some? && InRange(key, x, ring[x].successor.value, false, true) ==>
              r == Ok(ring[x].successor.value)
    decreases fuel, 1
  {
    if x !in ring then Err(Crash)
    else
      match ring[x].successor
      case None => Err(Crash)  // find_predecessor reads in_range(key, x, None)
      case Some(s) =>
        if s == x then Ok(x)
        else
          var p :- RingFindPredecessor(ring, x, key, fuel);
          if p == x then Ok(s)
          else if fuel == 0 then Err(OutOfFuel)
          else RingFindSuccessor(ring, p, key, fuel - 1)
  }

  /**
   * find_predecessor(key) run on node x: the node itself, or its closest preceding finger
   * once the local lookup of that finger has answered.
   */
  function RingFindPredecessor(ring: Ring, x: nat, key: int, fuel: nat): (r: Result<nat, Error>)
    requires Registry(ring)
    ensures x in ring && ring[x].successor == Some(x) ==> r == Ok(x)
    ensures r.Ok? ==> x in ring && (r.value == x || r.value == ClosestPrecedingNode(ring[x], key))
    decreases fuel, 0
  {
    if x !in ring then Err(Crash)
    else
      var step := FindPredecessorStep(ring[x], key);
      match step
      case NeedsSuccessorOf(c) =>
        if fuel == 0 then Err(OutOfFuel)
        else PredecessorOutcome(step, AsReply(RingFindSuccessor(ring, x, c, fuel - 1)))
      case _ => PredecessorOutcome(step, Err(Crash))
  }

  /**
   * find_predecessor answers the node itself or the qualifying finger of highest index:
   * it never walks further than one hop.
   */
  lemma FindPredecessorIsOneHop(ring: Ring, x: nat, key: int, fuel: nat)
    requires Registry(ring)
    ensures RingFindPredecessor(ring, x, key, fuel).Ok? ==>
              var p := RingFindPredecessor(ring, x, key, fuel).value;
              && x in ring
              && (|| p == x
                  || exists i | 0 <= i < |ring[x].fingers| ::
                       && Precedes(ring[x], key, i)
                       && ring[x].fingers[i] == Some(p)
                       && forall j | i < j < |ring[x].fingers| :: !Precedes(ring[x], key, j))
  {
    if x in ring {
      ClosestPrecedingNodeIsHighest(ring[x], key);
    }
  }

  /**
   * Past its own successor, find_successor(key) on x hands the whole lookup to the closest
   * preceding finger c, as soon as x's local lookup of c has answered at all.
   */
  lemma LookupForwards(ring: Ring, x: nat, key: int, fuel: nat, c: nat, cOwner: nat, owner: nat)
    requires Registry(ring) && x in ring && fuel > 0
    requires FindPredecessorStep(ring[x], key) == NeedsSuccessorOf(c)
    requires RingFindSuccessor(ring, x, c, fuel - 1) == Ok(cOwner)
    requires RingFindSuccessor(ring, c, key, fuel - 1) == Ok(owner)
    ensures RingFindPredecessor(ring, x, key, fuel) == Ok(c)
    ensures RingFindSuccessor(ring, x, key, fuel) == Ok(owner)
  {
  }

  // -------------------------------------------------------------------- join

  /**
   * join(bootstrap) on node x: with no bootstrap node x becomes a ring of one; otherwise
   * init_finger_table(bootstrap) runs, then update_others() once a successor is known.
   */
  function RingJoin(ring: Ring, x: nat, bootstrap: Option<nat>, fuel: nat): (r: Result<Ring, Error>)
    requires Registry(ring) && x in ring
    ensures r.Ok? ==> SameNodes(ring, r.value)
    ensures bootstrap.None? ==> r == Ok(ring[x := JoinAlone(ring[x])])
  {
    match bootstrap
    case None => Ok(ring[x := JoinAlone(ring[x])])
    case Some(b) =>
      var ring1 :- RingInitFingerTable(ring, x, b, fuel);
      if ring1[x].successor.Some? then RingUpdateOthers(ring1, x, 0, fuel) else Ok(ring1)
  }

  /**
   * init_finger_table(b) on node x: finger 0 and the successor come from b's lookup of
   * start(0); x takes the successor's predecessor and becomes the successor's predecessor;
   * the rest of the table is filled; finally x notifies its predecessor.
   */
  function RingInitFingerTable(ring: Ring, x: nat, b: nat, fuel: nat): (r: Result<Ring, Error>)
    requires Registry(ring) && x in ring
    ensures r.Ok? ==> SameNodes(ring, r.value)
    ensures r.Ok? ==> r.value[x].successor.Some? && |r.value[x].fingers| > 0 && r.value[x].fingers[0] == r.value[x].successor
  {
    if ring[x].m == 0 then Err(Crash)  // finger_table[0] of an empty table
    else
      var f0 :- RingFindSuccessor(ring, b, Start(x, 0, ring[x].m), fuel);
      var ring1 :- RingTakeSuccessor(ring, x, f0);
      var ring2 :- RingFillFingers(ring1, x, 0, fuel);
      DeliverNotify(ring2, ring2[x].predecessor, x)
  }

  /**
   * The first half of init_finger_table once f0 is known: finger 0 and the successor become
   * f0, x takes f0's predecessor, and f0 takes x as its predecessor.
   */
  function RingTakeSuccessor(ring: Ring, x: nat, f0: nat): (r: Result<Ring, Error>)
    requires Registry(ring) && x in ring && ring[x].m > 0
    ensures r.Ok? <==> f0 in ring
    ensures r.Ok? ==> SameNodes(ring, r.value)
    ensures r.Ok? ==> r.value[x].successor == Some(f0) && r.value[x].fingers[0] == Some(f0)
    ensures r.Ok? ==> r.value[f0].predecessor == Some(x)
    ensures r.Ok? && f0 != x ==> r.value[x].predecessor == ring[f0].predecessor
    ensures r.Ok? ==> r.value[x].fingers == ring[x].fingers[0 := Some(f0)]
    ensures r.Ok? ==> forall y | y in ring && y != x ::
              r.value[y].successor == ring[y].successor && r.value[y].fingers == ring[y].fingers
  {
    var n := ring[x];
    var ring1 := ring[x := n.(fingers := n.fingers[0 := Some(f0)], successor := Some(f0))];
    var pred :- GetPredecessor(ring1, Some(f0));
    var ring2 := ring1[x := ring1[x].(predecessor := pred)];
    SetPredecessor(ring2, Some(f0), Some(x))
  }

  /**
   * The loop of init_finger_table from slot i: slot i+1 copies slot i when start(i+1) lies
   * strictly inside (x, finger[i]), and is looked up by x itself otherwise.
   */
  function RingFillFingers(ring: Ring, x: nat, i: nat, fuel: nat): (r: Result<Ring, Error>)
    requires Registry(ring) && x in ring
    ensures r.Ok? ==> SameNodes(ring, r.value)
    ensures r.Ok? ==> r.value == ring[x := ring[x].(fingers := r.value[x].fingers)]
    ensures r.Ok? ==> forall j | 0 <= j <= i && j < ring[x].m :: r.value[x].fingers[j] == ring[x].fingers[j]
    decreases ring[x].m - i
  {
    var n := ring[x];
    if i + 1 >= n.m then Ok(ring)
    else
      match n.fingers[i]
      case None => Err(Crash)  // in_range(start, id, None) raises
      case Some(f) =>
        var k := Start(x, i + 1, n.m);
        var g :- if InRange(k, x, f, false, false) then Ok(f) else RingFindSuccessor(ring, x, k, fuel);
        var n1 := n.(fingers := n.fingers[i + 1 := Some(g)]);
        PutKeepsRegistry(ring, x, n1);
        RingFillFingers(ring[x := n1], x, i + 1, fuel)
  }

  /**
   * update_others() from slot i: for each i, the predecessor of Behind(x, i, m) is asked to
   * run update_finger_table(x, i). However far each update is forwarded, no node changes
   * anything but finger slots, and every slot that changes now names x.
   */
  function RingUpdateOthers(ring: Ring, x: nat, i: nat, fuel: nat): (r: Result<Ring, Error>)
    requires Registry(ring) && x in ring
    ensures r.Ok? ==> SameNodes(ring, r.value)
    ensures r.Ok? ==> FingersOnlyTo(ring, r.value, x)
    decreases ring[x].m - i
  {
    var m := ring[x].m;
    if i >= m then Ok(ring)
    else
      var p :- RingFindPredecessor(ring, x, Behind(x, i, m), fuel);
      var ring1 :- RingUpdateFingerTable(ring, p, x, i, fuel);
      UpdateFingerTableOnlyAdds(ring, p, x, i, fuel);
      var ring2 :- RingUpdateOthers(ring1, x, i + 1, fuel);
      FingersOnlyToChains(ring, ring1, ring2, x);
      Ok(ring2)
  }

  /**
   * update_finger_table(s, i) on node t, forwarded down the predecessor chain for as long
   * as each node improves its slot i. Only slot i of the nodes on that chain changes.
   */
  function RingUpdateFingerTable(ring: Ring, t: nat, s: nat, i: nat, fuel: nat): (r: Result<Ring, Error>)
    requires Registry(ring)
    ensures r.Ok? ==> SameNodes(ring, r.value)
    ensures r.Ok? ==> forall y | y in ring ::
              && r.value[y] == ring[y].(fingers := r.value[y].fingers)
              && forall j | 0 <= j < |ring[y].fingers| && j != i :: r.value[y].fingers[j] == ring[y].fingers[j]
    ensures r.Ok? ==> forall y | y in ring && r.value[y] != ring[y] ::
              i < |ring[y].fingers| && r.value[y].fingers[i] == Some(s)
    decreases fuel
  {
    if t !in ring || i >= |ring[t].fingers| then Err(Crash)  // KeyError, or IndexError on the table
    else
      var (n1, forward) := UpdateFinger(ring[t], s, i);
      PutKeepsRegistry(ring, t, n1);
      match forward
      case None => Ok(ring[t := n1])
      case Some(p) => if fuel == 0 then Err(OutOfFuel) else RingUpdateFingerTable(ring[t := n1], p, s, i, fuel - 1)
  }

  // ------------------------------------------------- join, over every ring

  /** Every successor a node records is a registered id. */
  predicate SuccessorsRegistered(ring: Ring) {
    forall y | y in ring && ring[y].successor.Some? :: ring[y].successor.value in ring
  }

  /** Slot j of x's finger table names a registered id. */
  predicate SlotRegistered(ring: Ring, x: nat, j: nat)
    requires x in ring && j < |ring[x].fingers|
  {
    ring[x].fingers[j].Some? && ring[x].fingers[j].value in ring
  }

  /** Changing nothing but the identity-preserving shape keeps the registry well formed. */
  lemma SameNodesKeepsRegistry(ring: Ring, ring': Ring)
    requires Registry(ring) && SameNodes(ring, ring')
    ensures Registry(ring')
  {
  }

  /** When every recorded successor is registered, so is every answer of find_successor. */
  lemma {:induction false} FindSuccessorRegistered(ring: Ring, x: nat, key: int, fuel: nat)
    requires Registry(ring) && SuccessorsRegistered(ring)
    ensures RingFindSuccessor(ring, x, key, fuel).Ok? ==> RingFindSuccessor(ring, x, key, fuel).value in ring
    decreases fuel
  {
    if x in ring && ring[x].successor.Some? && ring[x].successor.value != x && fuel > 0 {
      var p := RingFindPredecessor(ring, x, key, fuel);
      if p.Ok? && p.value != x {
        FindSuccessorRegistered(ring, p.value, key, fuel - 1);
      }
    }
  }

  /** Every slot of x's table below `upto` names a registered id. */
  predicate SlotsRegistered(ring: Ring, x: nat, upto: nat)
    requires x in ring
  {
    forall j | 0 <= j < upto && j < |ring[x].fingers| :: SlotRegistered(ring, x, j)
  }

  /** One round of that loop: writing a registered id into slot i + 1 keeps slots 0..i+1 registered. */
  lemma FillStepRegistered(ring: Ring, x: nat, i: nat, g: nat)
    requires Registry(ring) && x in ring && SuccessorsRegistered(ring) && i + 1 < ring[x].m && g in ring
    requires SlotsRegistered(ring, x, i + 1)
    ensures var ring1 := ring[x := ring[x].(fingers := ring[x].fingers[i + 1 := Some(g)])];
            && Registry(ring1) && x in ring1 && SuccessorsRegistered(ring1) && SlotsRegistered(ring1, x, i + 2)
  {
    var n1 := ring[x].(fingers := ring[x].fingers[i + 1 := Some(g)]);
    PutKeepsRegistry(ring, x, n1);
    var ring1 := ring[x := n1];
    forall j | 0 <= j < i + 2 && j < |ring1[x].fingers|
      ensures SlotRegistered(ring1, x, j)
    {
      if j <= i {
        assert SlotRegistered(ring, x, j);
      }
    }
  }

  /**
   * The loop of init_finger_table fills every later slot with a registered id, whether it
   * copies the slot before or looks the start point up.
   */
  lemma {:induction false} FillFingersRegistered(ring: Ring, x: nat, i: nat, fuel: nat)
    requires Registry(ring) && x in ring && SuccessorsRegistered(ring)
    requires SlotsRegistered(ring, x, i + 1)
    ensures FilledRegistered(RingFillFingers(ring, x, i, fuel), x, ring[x].m)
    decreases ring[x].m - i, 1
  {
    if i + 1 < ring[x].m {
      FillFingersStepRegistered(ring, x, i, fuel);
    } else {
      assert RingFillFingers(ring, x, i, fuel) == Ok(ring);
    }
  }

  /** The same, from a slot that still has a successor slot to fill. */
  lemma {:induction false} FillFingersStepRegistered(ring: Ring, x: nat, i: nat, fuel: nat)
    requires Registry(ring) && x in ring && SuccessorsRegistered(ring)
    requires SlotsRegistered(ring, x, i + 1) && i + 1 < ring[x].m
    ensures FilledRegistered(RingFillFingers(ring, x, i, fuel), x, ring[x].m)
    decreases ring[x].m - i, 0
  {
    if RingFillFingers(ring, x, i, fuel).Ok? {
      var ring1 := FillFingersUnfold(ring, x, i, fuel);
      FillFingersRegistered(ring1, x, i + 1, fuel);
      assert RingFillFingers(ring1, x, i + 1, fuel) == RingFillFingers(ring, x, i, fuel);
    }
  }

  /** A successful fill leaves every recorded successor, and slots 0..m-1 of x's table, registered. */
  predicate FilledRegistered(r: Result<Ring, Error>, x: nat, m: nat)
  {
    r.Ok? ==> x in r.value && SuccessorsRegistered(r.value) && SlotsRegistered(r.value, x, m)
  }

  /**
   * One successful round of that loop writes a registered id into slot i + 1 and carries on
   * from ring1, which keeps every pointer of the first i + 2 slots registered.
   */
  lemma FillFingersUnfold(ring: Ring, x: nat, i: nat, fuel: nat) returns (ring1: Ring)
    requires Registry(ring) && x in ring && SuccessorsRegistered(ring)
    requires SlotsRegistered(ring, x, i + 1)
    requires i + 1 < ring[x].m && RingFillFingers(ring, x, i, fuel).Ok?
    ensures Registry(ring1) && x in ring1 && SuccessorsRegistered(ring1) && SlotsRegistered(ring1, x, i + 2)
    ensures ring1[x].m == ring[x].m
    ensures RingFillFingers(ring, x, i, fuel) == RingFillFingers(ring1, x, i + 1, fuel)
  {
    var n := ring[x];
    assert SlotRegistered(ring, x, i);
    var f := n.fingers[i].value;
    var k := Start(x, i + 1, n.m);
    FindSuccessorRegistered(ring, x, k, fuel);
    var h := if InRange(k, x, f, false, false) then Ok(f) else RingFindSuccessor(ring, x, k, fuel);
    assert h.Ok?;
    FillStepRegistered(ring, x, i, h.value);
    ring1 := ring[x := n.(fingers := n.fingers[i + 1 := Some(h.value)])];
  }

  /** Every recorded successor, and every slot of x's table, names a registered id. */
  predicate PointersRegistered(ring: Ring, x: nat)
    requires x in ring
  {
    SuccessorsRegistered(ring) && forall j | 0 <= j < |ring[x].fingers| :: SlotRegistered(ring, x, j)
  }

  /** The first half of init_finger_table points x at a registered f0 from slot 0 and the successor field. */
  lemma TakeSuccessorRegistered(ring: Ring, x: nat, f0: nat)
    requires Registry(ring) && x in ring && ring[x].m > 0 && SuccessorsRegistered(ring) && f0 in ring
    ensures RingTakeSuccessor(ring, x, f0).Ok?
    ensures Registry(RingTakeSuccessor(ring, x, f0).value)
    ensures SuccessorsRegistered(RingTakeSuccessor(ring, x, f0).value)
    ensures SlotRegistered(RingTakeSuccessor(ring, x, f0).value, x, 0)
  {
    SameNodesKeepsRegistry(ring, RingTakeSuccessor(ring, x, f0).value);
  }

  /** A notify moves only a predecessor, so it keeps every recorded pointer registered. */
  lemma NotifyKeepsRegistered(ring: Ring, t: Option<nat>, c: nat, x: nat)
    requires x in ring && PointersRegistered(ring, x)
    ensures DeliverNotify(ring, t, c).Ok? ==> PointersRegistered(DeliverNotify(ring, t, c).value, x)
  {
    var r := DeliverNotify(ring, t, c);
    if r.Ok? {
      assert forall y | y in ring :: r.value[y].successor == ring[y].successor && r.value[y].fingers == ring[y].fingers;
      forall j | 0 <= j < |r.value[x].fingers|
        ensures SlotRegistered(r.value, x, j)
      {
        assert SlotRegistered(ring, x, j);
      }
    }
  }

  /**
   * When every recorded successor is registered, init_finger_table keeps it so and leaves
   * every slot of the joining node's table naming a registered id.
   */
  lemma InitFingerTableRegistered(ring: Ring, x: nat, b: nat, fuel: nat)
    requires Registry(ring) && x in ring && SuccessorsRegistered(ring)
    ensures RingInitFingerTable(ring, x, b, fuel).Ok? ==>
              && x in RingInitFingerTable(ring, x, b, fuel).value
              && PointersRegistered(RingInitFingerTable(ring, x, b, fuel).value, x)
  {
    var m := ring[x].m;
    if m > 0 {
      var f0 := RingFindSuccessor(ring, b, Start(x, 0, m), fuel);
      FindSuccessorRegistered(ring, b, Start(x, 0, m), fuel);
      if f0.Ok? {
        TakeSuccessorRegistered(ring, x, f0.value);
        var ring1 := RingTakeSuccessor(ring, x, f0.value).value;
        FillFingersRegistered(ring1, x, 0, fuel);
        var r2 := RingFillFingers(ring1, x, 0, fuel);
        if r2.Ok? {
          var ring2 := r2.value;
          SameNodesKeepsRegistry(ring1, ring2);
          assert PointersRegistered(ring2, x);
          NotifyKeepsRegistered(ring2, ring2[x].predecessor, x, x);
          assert RingInitFingerTable(ring, x, b, fuel) == DeliverNotify(ring2, ring2[x].predecessor, x);
        }
      }
    }
  }

  /** Node b is node a with nothing changed but finger slots, and every changed slot names s. */
  predicate FingersOnlyToAt(a: NodeState, b: NodeState, s: nat) {
    && b == a.(fingers := b.fingers)
    && |b.fingers| == |a.fingers|
    && forall j | 0 <= j < |a.fingers| :: b.fingers[j] == a.fingers[j] || b.fingers[j] == Some(s)
  }

  /** From ring to ring', nodes changed nothing but finger slots, and every slot that changed now names s. */
  predicate FingersOnlyTo(ring: Ring, ring': Ring, s: nat) {
    ring'.Keys == ring.Keys && forall y | y in ring :: FingersOnlyToAt(ring[y], ring'[y], s)
  }

  lemma FingersOnlyToChains(a: Ring, b: Ring, c: Ring, s: nat)
    requires FingersOnlyTo(a, b, s) && FingersOnlyTo(b, c, s)
    ensures FingersOnlyTo(a, c, s)
  {
    forall y | y in a
      ensures FingersOnlyToAt(a[y], c[y], s)
    {
      assert FingersOnlyToAt(a[y], b[y], s) && FingersOnlyToAt(b[y], c[y], s);
    }
  }

  /** update_finger_table(s, i), forwarded however far, only ever writes s into finger slots. */
  lemma UpdateFingerTableOnlyAdds(ring: Ring, t: nat, s: nat, i: nat, fuel: nat)
    requires Registry(ring)
    ensures RingUpdateFingerTable(ring, t, s, i, fuel).Ok? ==> FingersOnlyTo(ring, RingUpdateFingerTable(ring, t, s, i, fuel).value, s)
  {
    var r := RingUpdateFingerTable(ring, t, s, i, fuel);
    if r.Ok? {
      forall y | y in ring
        ensures FingersOnlyToAt(ring[y], r.value[y], s)
      {
        forall j | 0 <= j < |ring[y].fingers|
          ensures r.value[y].fingers[j] == ring[y].fingers[j] || r.value[y].fingers[j] == Some(s)
        {
          if j == i && r.value[y] != ring[y] {
            assert r.value[y].fingers[i] == Some(s);
          }
        }
      }
    }
  }

  /** One round of update_others, once the lookup and the update it sends are known. */
  lemma UpdateOthersRound(ring: Ring, x: nat, i: nat, fuel: nat, p: nat, ring1: Ring)
    requires Registry(ring) && x in ring && i < ring[x].m
    requires RingFindPredecessor(ring, x, Behind(x, i, ring[x].m), fuel) == Ok(p)
    requires RingUpdateFingerTable(ring, p, x, i, fuel) == Ok(ring1)
    ensures Registry(ring1) && x in ring1
    ensures RingUpdateOthers(ring, x, i, fuel) == RingUpdateOthers(ring1, x, i + 1, fuel)
  {
  }

  /** update_others only ever writes the joining node, which is registered, into finger slots. */
  lemma OnlyJoinerKeepsRegistered(ring: Ring, ring': Ring, x: nat)
    requires x in ring && PointersRegistered(ring, x) && FingersOnlyTo(ring, ring', x)
    ensures x in ring' && PointersRegistered(ring', x)
  {
    forall y | y in ring'
      ensures ring'[y].successor == ring[y].successor
    {
      assert FingersOnlyToAt(ring[y], ring'[y], x);
    }
    assert FingersOnlyToAt(ring[x], ring'[x], x);
    forall j | 0 <= j < |ring'[x].fingers|
      ensures SlotRegistered(ring', x, j)
    {
      assert SlotRegistered(ring, x, j);
    }
  }

  /**
   * join(bootstrap) over any ring whose recorded successors are registered: they stay
   * registered, and every slot of the joining node's table names a registered node.
   */
  lemma JoinKeepsPointersRegistered(ring: Ring, x: nat, bootstrap: Option<nat>, fuel: nat)
    requires Registry(ring) && x in ring && SuccessorsRegistered(ring)
    ensures RingJoin(ring, x, bootstrap, fuel).Ok? ==>
              && x in RingJoin(ring, x, bootstrap, fuel).value
              && PointersRegistered(RingJoin(ring, x, bootstrap, fuel).value, x)
  {
    if bootstrap.Some? {
      InitFingerTableRegistered(ring, x, bootstrap.value, fuel);
      var r1 := RingInitFingerTable(ring, x, bootstrap.value, fuel);
      if r1.Ok? && r1.value[x].successor.Some? {
        var r := RingUpdateOthers(r1.value, x, 0, fuel);
        if r.Ok? {
          OnlyJoinerKeepsRegistered(r1.value, r.value, x);
        }
      }
    } else {
      var r := RingJoin(ring, x, bootstrap, fuel).value;
      forall j | 0 <= j < |r[x].fingers|
        ensures SlotRegistered(r, x, j)
      {
      }
    }
  }

  // --------------------------------------------------------------- maintenance

  /**
   * stabilize() on node x: adopt the successor's predecessor when it lies in (x, successor],
   * notify the (possibly new) successor, check the predecessor, collapse to a ring of one
   * when alone. The test network never raises grpc.RpcError, so find_alive_successor is
   * not reached here.
   */
  function RingStabilize(ring: Ring, x: nat): (r: Result<Ring, Error>)
    requires Registry(ring) && x in ring
    ensures r.Ok? ==> SameNodes(ring, r.value)
    ensures r.Ok? ==> r.value[x].stabilizations == ring[x].stabilizations + 1
    ensures r.Ok? ==> r.value[x].fingers == ring[x].fingers && r.value[x].info == ring[x].info
    ensures r.Ok? ==> forall y | y in ring && y != x && Some(y) != r.value[x].successor :: r.value[y] == ring[y]
  {
    var ring1 :- RingAdoptAndNotify(ring, x);
    var n1 := ring1[x];
    var n2 :- CheckPredecessor(n1, if n1.predecessor.Some? then GetPredecessor(ring1, n1.predecessor) else Ok(None));
    Ok(ring1[x := CollapseIfAlone(n2)])
  }

  /**
   * The first half of stabilize() on node x: the counter rises, x adopts its successor's
   * predecessor when that lies in (x, successor], and notifies the successor it keeps.
   */
  function RingAdoptAndNotify(ring: Ring, x: nat): (r: Result<Ring, Error>)
    requires Registry(ring) && x in ring
    ensures r.Ok? ==> SameNodes(ring, r.value)
    ensures r.Ok? ==> r.value[x].stabilizations == ring[x].stabilizations + 1
    ensures r.Ok? ==> r.value[x].fingers == ring[x].fingers && r.value[x].info == ring[x].info
    ensures r.Ok? ==> forall y | y in ring && y != x && Some(y) != r.value[x].successor :: r.value[y] == ring[y]
  {
    var n := ring[x].(stabilizations := ring[x].stabilizations + 1);
    var reported :- GetPredecessor(ring, n.successor);
    var n1 := AdoptSuccessor(n, reported).value;  // the successor is set: get_predecessor found it
    PutKeepsRegistry(ring, x, n1);
    DeliverNotify(ring[x := n1], n1.successor, x)
  }

  /** fix_fingers() on node x: the counter rises, then every slot is looked up by x itself. */
  function RingFixFingers(ring: Ring, x: nat, fuel: nat): (r: Result<Ring, Error>)
    requires Registry(ring) && x in ring
    ensures r.Ok? ==> SameNodes(ring, r.value)
    ensures r.Ok? ==> r.value == ring[x := ring[x].(fingers := r.value[x].fingers, fingerFixes := ring[x].fingerFixes + 1)]
  {
    RingFixFrom(ring[x := ring[x].(fingerFixes := ring[x].fingerFixes + 1)], x, 0, fuel)
  }

  /** The fix_fingers loop from slot i: slot i takes x's own lookup of start(i), if it returned one. */
  function RingFixFrom(ring: Ring, x: nat, i: nat, fuel: nat): (r: Result<Ring, Error>)
    requires Registry(ring) && x in ring
    ensures r.Ok? ==> SameNodes(ring, r.value)
    ensures r.Ok? ==> r.value == ring[x := ring[x].(fingers := r.value[x].fingers)]
    decreases ring[x].m - i
  {
    var n := ring[x];
    if i >= n.m then Ok(ring)
    else
      var n1 :- FixFinger(n, i, AsReply(RingFindSuccessor(ring, x, Start(x, i, n.m), fuel)));
      PutKeepsRegistry(ring, x, n1);
      RingFixFrom(ring[x := n1], x, i + 1, fuel)
  }

  // --------------------------------------------------------------------- leave

  /** leave() hands x's information to its successor, skipped when that is falsy or x itself. */
  function HandOver(ring: Ring, n: NodeState): (r: Result<Ring, Error>)
    ensures r.Ok? ==> r.value.Keys == ring.Keys
    ensures Truthy(n.successor) && n.successor != Some(n.id) && n.info != map[] && r.Ok? ==>
              && n.successor.value in ring
              && OnlyChanges(ring, r.value, n.successor.value)
              && r.value[n.successor.value] == ring[n.successor.value].(info := ring[n.successor.value].info + n.info)
    ensures !(Truthy(n.successor) && n.successor != Some(n.id) && n.info != map[]) ==> r == Ok(ring)
  {
    if Truthy(n.successor) && n.successor != Some(n.id) && n.info != map[] then
      var s :- Target(ring, n.successor);
      Ok(ring[s := ring[s].(info := ring[s].info + n.info)])
    else Ok(ring)
  }

  /**
   * leave() on node x: hand over the information, then splice the neighbours together by
   * set_successor(predecessor, successor), set_predecessor(successor, predecessor) and two
   * notifies. Each call is skipped when its target would be x itself; x is left as it was.
   */
  function RingLeave(ring: Ring, x: nat): (r: Result<Ring, Error>)
    requires Registry(ring) && x in ring
    ensures r.Ok? ==> r.value.Keys == ring.Keys && r.value[x] == ring[x]
  {
    var n := ring[x];
    var ring1 :- HandOver(ring, n);
    var ring2 :- if n.predecessor != Some(x) then SetSuccessor(ring1, n.predecessor, n.successor) else Ok(ring1);
    var ring3 :- if n.successor != Some(x) then SetPredecessor(ring2, n.successor, n.predecessor) else Ok(ring2);
    // Past the two writes, each neighbour is x itself or a registered id, so the notifies cannot fail.
    var ring4 := if n.predecessor != Some(x) then DeliverNotify(ring3, n.predecessor, n.successor.value).value else ring3;
    Ok(if n.successor != Some(x) then DeliverNotify(ring4, n.successor, n.predecessor.value).value else ring4)
  }

  /**
   * leave() between two registered neighbours p and s: afterwards p's successor is s and
   * s's predecessor is p.
   */
  lemma LeaveSplices(ring: Ring, x: nat, p: nat, s: nat)
    requires Registry(ring) && x in ring && p in ring && s in ring && p != x && s != x
    requires ring[x].predecessor == Some(p) && ring[x].successor == Some(s)
    ensures RingLeave(ring, x).Ok?
    ensures RingLeave(ring, x).value[p].successor == Some(s)
    ensures RingLeave(ring, x).value[s].predecessor == Some(p)
  {
    var n := ring[x];
    var ring1 := HandOver(ring, n).value;
    var ring2 := ring1[p := ring1[p].(successor := Some(s))];
    assert SetSuccessor(ring1, Some(p), Some(s)) == Ok(ring2);
    var ring3 := ring2[s := ring2[s].(predecessor := Some(p))];
    assert SetPredecessor(ring2, Some(s), Some(p)) == Ok(ring3);
    var ring4 := ring3[p := Notify(ring3[p], s)];
    assert DeliverNotify(ring3, Some(p), s) == Ok(ring4);
    InRangeEqualEnds(p, p, false, false);
    if p == s {
      assert ring4[s] == ring3[s] == ring1[s].(successor := Some(s), predecessor := Some(p));
    } else {
      assert ring4[s] == ring3[s] == ring1[s].(predecessor := Some(p));
      assert ring4[p].successor == ring3[p].successor == Some(s);
    }
    assert !AcceptsPredecessor(ring4[s], p);
    var ring5 := DeliverNotify(ring4, Some(s), p).value;
    assert RingLeave(ring, x) == Ok(ring5);
    assert ring5[s] == ring4[s];
  }

  /**
   * leave() hands x's information to its registered successor s, where x's values win over
   * s's own for a shared key; when s is the falsy id 0 the information is dropped instead.
   */
  lemma LeaveHandsOver(ring: Ring, x: nat, p: nat, s: nat)
    requires Registry(ring) && x in ring && p in ring && s in ring && p != x && s != x
    requires ring[x].predecessor == Some(p) && ring[x].successor == Some(s)
    ensures RingLeave(ring, x).Ok?
    ensures s != 0 ==> RingLeave(ring, x).value[s].info == ring[s].info + ring[x].info
    ensures s == 0 ==> RingLeave(ring, x).value[s].info == ring[s].info
  {
    var n := ring[x];
    var ring1 := HandOver(ring, n).value;
    var info := if s != 0 then ring[s].info + n.info else ring[s].info;
    assert ring1[s].info == info;
    var ring2 := SetSuccessor(ring1, Some(p), Some(s)).value;
    var ring3 := SetPredecessor(ring2, Some(s), Some(p)).value;
    assert ring3[s].info == info;
    var ring4 := DeliverNotify(ring3, Some(p), s).value;
    assert ring4[s].info == info;
    var ring5 := DeliverNotify(ring4, Some(s), p).value;
    assert RingLeave(ring, x) == Ok(ring5);
  }

  // --------------------------------------------------------------- information

  /**
   * get_information(key) on node x: find the owner with find_successor(key); the owner
   * answers from its own store. The test network forwards to the owner's full
   * get_information. A remote "None" string reads as a missing value.
   */
  function RingGetInformation(ring: Ring, x: nat, key: nat, fuel: nat): (r: Result<Option<string>, Error>)
    requires Registry(ring)
    ensures x in ring && RingFindSuccessor(ring, x, key, fuel) == Ok(x) ==> r == Ok(NodeHasInfo(ring[x], key))
    ensures RingFindSuccessor(ring, x, key, fuel).Err? ==> r == Err(RingFindSuccessor(ring, x, key, fuel).error)
    decreases fuel
  {
    if x !in ring then Err(Crash)
    else
      var owner :- RingFindSuccessor(ring, x, key, fuel);
      if owner == x then Ok(NodeHasInfo(ring[x], key))
      else if fuel == 0 then Err(OutOfFuel)
      else
        var v :- RingGetInformation(ring, owner, key, fuel - 1);
        Ok(if v == Some("None") then None else v)
  }

  /** remove_info on x is refused, and changes nothing, when get_information finds nothing truthy. */
  lemma RemoveInfoRefused(ring: Ring, x: nat, key: nat, fuel: nat, v: Option<string>)
    requires Registry(ring) && x in ring
    requires RingGetInformation(ring, x, key, fuel) == Ok(v) && !Present(v)
    ensures RingRemoveInfo(ring, x, key, fuel) == Ok((ring, false))
  {
  }

  /** Once a truthy value is seen, remove_info on x hands the removal to the owner's own remove_info. */
  lemma RemoveInfoForwards(ring: Ring, x: nat, key: nat, fuel: nat, o: nat, v: Option<string>, after: Ring)
    requires Registry(ring) && x in ring && fuel > 0 && o != x
    requires RingGetInformation(ring, x, key, fuel) == Ok(v) && Present(v)
    requires RingFindSuccessor(ring, x, key, fuel) == Ok(o)
    requires RingRemoveInfo(ring, o, key, fuel - 1) == Ok((after, true))
    ensures RingRemoveInfo(ring, x, key, fuel) == Ok((after, true))
  {
  }

  /**
   * create_info(key, value) on node x: refused (false) when a truthy value is already
   * found for the key; otherwise the value is stored at the node find_successor(key) names.
   */
  function RingCreateInfo(ring: Ring, x: nat, key: nat, value: string, fuel: nat): (r: Result<(Ring, bool), Error>)
    requires Registry(ring)
    ensures r.Ok? ==> r.value.0.Keys == ring.Keys
    ensures r.Ok? ==> RingGetInformation(ring, x, key, fuel).Ok?
    ensures r.Ok? ==> (r.value.1 <==> !Present(RingGetInformation(ring, x, key, fuel).value))
    ensures r.Ok? && !r.value.1 ==> r.value.0 == ring
    ensures r.Ok? && r.value.1 ==>
              var owner := RingFindSuccessor(ring, x, key, fuel);
              && owner.Ok? && owner.value in ring
              && r.value.0 == ring[owner.value := AddInformation(ring[owner.value], key, value)]
  {
    if x !in ring then Err(Crash)
    else
      var existing :- RingGetInformation(ring, x, key, fuel);
      if Present(existing) then Ok((ring, false))
      else
        var owner :- RingFindSuccessor(ring, x, key, fuel);
        var ring1 :- AddInformationAt(ring, owner, key, value);
        Ok((ring1, true))
  }

  /**
   * create_info twice on a node that is its own successor: the first call stores a truthy
   * value, and the second, whatever its value, is refused and leaves the ring alone.
   */
  lemma CreateTwiceRefused(ring: Ring, x: nat, key: nat, v: string, v2: string, fuel: nat)
    requires Registry(ring) && x in ring && ring[x].successor == Some(x) && key !in ring[x].info
    requires v != ""
    ensures var ring1 := ring[x := AddInformation(ring[x], key, v)];
            && RingCreateInfo(ring, x, key, v, fuel) == Ok((ring1, true))
            && RingCreateInfo(ring1, x, key, v2, fuel) == Ok((ring1, false))
  {
  }

  /**
   * Storing the empty string does not count as a value: create_info with "" succeeds, and a
   * second create_info for the same key succeeds as well and overwrites it.
   */
  lemma CreateEmptyThenOverwrite(ring: Ring, x: nat, key: nat, v2: string, fuel: nat)
    requires Registry(ring) && x in ring && ring[x].successor == Some(x) && key !in ring[x].info
    ensures var ring1 := ring[x := AddInformation(ring[x], key, "")];
            && RingCreateInfo(ring, x, key, "", fuel) == Ok((ring1, true))
            && RingCreateInfo(ring1, x, key, v2, fuel) == Ok((ring1[x := AddInformation(ring1[x], key, v2)], true))
  {
  }

  /**
   * remove_info on a node that is its own successor and holds a truthy value for the key:
   * the call succeeds, and afterwards node_has_info finds nothing under the key.
   */
  lemma RemoveOnSelfSuccessor(ring: Ring, x: nat, key: nat, fuel: nat)
    requires Registry(ring) && x in ring && ring[x].successor == Some(x)
    requires key in ring[x].info && ring[x].info[key] != ""
    ensures RingRemoveInfo(ring, x, key, fuel) == Ok((ring[x := RemoveInformation(ring[x], key)], true))
    ensures NodeHasInfo(RingRemoveInfo(ring, x, key, fuel).value.0[x], key) == None
  {
  }

  /**
   * On a node that is its own successor, create_info of a non-empty value for an absent key
   * followed by remove_info of that key gives back the ring it started from.
   */
  lemma CreateThenRemoveRestores(ring: Ring, x: nat, key: nat, v: string, fuel: nat)
    requires Registry(ring) && x in ring && ring[x].successor == Some(x) && key !in ring[x].info
    requires v != ""
    ensures RingCreateInfo(ring, x, key, v, fuel).Ok?
    ensures RingRemoveInfo(RingCreateInfo(ring, x, key, v, fuel).value.0, x, key, fuel) == Ok((ring, true))
  {
    var ring1 := ring[x := AddInformation(ring[x], key, v)];
    PutKeepsRegistry(ring, x, ring1[x]);
    RemoveOnSelfSuccessor(ring1, x, key, fuel);
    assert ring1[x := RemoveInformation(ring1[x], key)][x] == ring[x];
    assert ring1[x := RemoveInformation(ring1[x], key)] == ring;
  }

  /**
   * remove_info(key) on node x: refused (false) when no truthy value is found; otherwise the
   * owner drops the key (the test network forwards to the owner's full remove_info).
   * Whatever happens, no node loses any key but `key`, and nothing else changes.
   */
  function RingRemoveInfo(ring: Ring, x: nat, key: nat, fuel: nat): (r: Result<(Ring, bool), Error>)
    requires Registry(ring)
    ensures r.Ok? ==> r.value.0.Keys == ring.Keys
    ensures r.Ok? ==> RingGetInformation(ring, x, key, fuel).Ok?
    ensures r.Ok? ==> (r.value.1 <==> Present(RingGetInformation(ring, x, key, fuel).value))
    ensures r.Ok? && !r.value.1 ==> r.value.0 == ring
    ensures r.Ok? && r.value.1 && x in ring && RingFindSuccessor(ring, x, key, fuel) == Ok(x) ==>
              r.value.0 == ring[x := RemoveInformation(ring[x], key)]
    ensures r.Ok? ==> forall y | y in ring ::
              && r.value.0[y] == ring[y].(info := r.value.0[y].info)
              && (r.value.0[y].info == ring[y].info || r.value.0[y].info == ring[y].info - {key})
    decreases fuel
  {
    if x !in ring then Err(Crash)
    else
      var existing :- RingGetInformation(ring, x, key, fuel);
      if !Present(existing) then Ok((ring, false))
      else
        var owner :- RingFindSuccessor(ring, x, key, fuel);
        if owner == x then Ok((ring[x := RemoveInformation(ring[x], key)], true))
        else if fuel == 0 then Err(OutOfFuel)
        else
          var removed :- RingRemoveInfo(ring, owner, key, fuel - 1);
          Ok((removed.0, true))
  }
}

=== FILE: ring_math.dfy ===
/**
 * Arithmetic on the m-bit Chord identifier ring: the finger starts and the
 * circular interval test of business/node.py.
 */
module RingMath {

  /** 2^i. */
  function Pow2(i: nat): (r: nat)
    ensures r >= 1
  {
    if i == 0 then 1 else 2 * Pow2(i - 1)
  }

  /** start(i) = (id + 2^i) mod 2^m, the first key finger i is responsible for. */
  function Start(id: nat, i: nat, m: nat): (r: nat)
    ensures r < Pow2(m)
  {
    (id + Pow2(i)) % Pow2(m)
  }

  /**
   * The id whose finger i may now point at a joining node: (id - 2^i) mod 2^m. Python's `%`
   * and Dafny's agree here because the modulus is positive.
   */
  function Behind(id: nat, i: nat, m: nat): (r: nat)
    ensures r < Pow2(m)
  {
    (id - Pow2(i)) % Pow2(m)
  }

  /** Clockwise distance from a to b on a ring of `size` points (both taken in [0, size)). */
  function Dist(a: int, b: int, size: int): int {
    if a <= b then b - a else b - a + size
  }

  /** Clockwise distance going forward at least one step: a full turn from a point to itself. */
  function Gap(a: int, b: int, size: int): int {
    if a == b then size else Dist(a, b, size)
  }

  /**
   * in_range(key, start, end, include_start, include_end), branch for branch.
   * `start == end` stands for the whole ring except `start`, whatever the flags.
   * Otherwise the interval runs clockwise from start to end, wrapping past the top.
   */
  predicate InRange(key: int, start: int, end: int, includeStart: bool, includeEnd: bool)
    ensures start != end && key == start ==> (InRange(key, start, end, includeStart, includeEnd) <==> includeStart)
    ensures start != end && key == end ==> (InRange(key, start, end, includeStart, includeEnd) <==> includeEnd)
  {
    if start == end then key != start
    else if start < end then
      if includeStart && includeEnd then start <= key <= end
      else if includeStart then start <= key < end
      else if includeEnd then start < key <= end
      else start < key < end
    else
      if includeStart && includeEnd then key >= start || key <= end
      else if includeStart then key >= start || key < end
      else if includeEnd then key > start || key <= end
      else key > start || key < end
  }

  /** When both ends coincide the flags are irrelevant: every key but the end point is inside. */
  lemma InRangeEqualEnds(key: int, point: int, includeStart: bool, includeEnd: bool)
    ensures InRange(key, point, point, includeStart, includeEnd) <==> key != point
  {
  }

  /** With distinct ends, the flags add exactly the end points to the open interval. */
  lemma InRangeFlagsAddEndpoints(key: int, start: int, end: int, includeStart: bool, includeEnd: bool)
    requires start != end
    ensures InRange(key, start, end, includeStart, includeEnd) <==>
              || InRange(key, start, end, false, false)
              || (includeStart && key == start)
              || (includeEnd && key == end)
  {
  }

  /**
   * On the ring [0, size), the open and half-open intervals are exactly the keys whose
   * clockwise distance from `start` is below (at most) that of `end`.
   */
  lemma InRangeIsClockwise(key: int, start: int, end: int, size: int)
    requires 0 <= key < size && 0 <= start < size && 0 <= end < size && start != end
    ensures InRange(key, start, end, false, false) <==> 0 < Dist(start, key, size) < Dist(start, end, size)
    ensures InRange(key, start, end, false, true) <==> 0 < Dist(start, key, size) <= Dist(start, end, size)
  {
  }

  lemma Pow2Grows(i: nat, j: nat)
    requires i < j
    ensures 2 * Pow2(i) <= Pow2(j)
  {
    if j > i + 1 {
      Pow2Grows(i, j - 1);
    }
  }

  lemma ModBelowTwice(v: int, size: int)
    requires 0 < size && 0 <= v < 2 * size
    ensures v % size == (if v < size then v else v - size)
  {
  }

  /** Finger i of a node starts exactly 2^i points clockwise from the node. */
  lemma {:induction false} StartIsClockwiseOffset(id: nat, i: nat, m: nat)
    requires id < Pow2(m) && i < m
    ensures Dist(id, Start(id, i, m), Pow2(m)) == Pow2(i)
  {
    Pow2Grows(i, m);
    ModBelowTwice(id + Pow2(i), Pow2(m));
  }

  /** On the ring [0, size) distances lie in [0, size) and vanish only from a point to itself. */
  lemma DistBounds(a: int, b: int, size: int)
    requires 0 <= a < size && 0 <= b < size
    ensures 0 <= Dist(a, b, size) < size
    ensures Dist(a, b, size) == 0 <==> a == b
    ensures 1 <= Gap(a, b, size) <= size
  {
  }

  /** From a fixed point, the clockwise distance determines the point reached. */
  lemma DistInjective(a: int, b: int, c: int, size: int)
    requires 0 <= a < size && 0 <= b < size && 0 <= c < size
    requires Dist(a, b, size) == Dist(a, c, size)
    ensures b == c
  {
  }

  /** Walking clockwise from a to c past b: the two legs add up to the whole, modulo a turn. */
  lemma DistSplit(a: int, b: int, c: int, size: int)
    requires 0 <= a < size && 0 <= b < size && 0 <= c < size
    ensures Dist(a, b, size) <= Dist(a, c, size) ==> Dist(b, c, size) == Dist(a, c, size) - Dist(a, b, size)
    ensures Dist(a, b, size) > Dist(a, c, size) ==> Dist(b, c, size) == Dist(a, c, size) - Dist(a, b, size) + size
  {
  }

  /** Measured from start(0) = id + 1, every point is one step nearer than it is from id going forward. */
  lemma DistFromNext(id: nat, y: nat, m: nat)
    requires id < Pow2(m) && y < Pow2(m)
    ensures Dist(Start(id, 0, m), y, Pow2(m)) == Gap(id, y, Pow2(m)) - 1
  {
    ModBelowTwice(id + 1, Pow2(m));
  }

  /**
   * A point strictly inside (a, b) splits the forward trip from a to b into two shorter
   * forward trips; for a == b the interval is the whole ring but a.
   */
  lemma GapsShrink(a: int, c: int, b: int, size: int)
    requires 0 <= a < size && 0 <= c < size && 0 <= b < size
    requires InRange(c, a, b, false, false)
    ensures 1 <= Gap(a, c, size) < Gap(a, b, size)
    ensures 1 <= Gap(c, b, size) < Gap(a, b, size)
  {
    if a != b {
      InRangeIsClockwise(c, a, b, size);
      DistSplit(a, c, b, size);
    }
  }
}

=== FILE: scenarios.dfy ===
/**
 * The ring of tests/test_node_network.py: seven nodes 3, 7, 8, 12, 21, 27 and 30 on a
 * 5-bit identifier space, registered with the test network before any of them joins.
 * The scenarios start from the converged ring the tests' maintenance rounds aim at,
 * and replay the assertions the tests make against it.
 */
module Scenarios {
  import opened Wrappers
  import opened RingMath
  import opened ChordNode
  import opened MockNetwork
  import opened ConvergedRing

  /** The identifier width of every test. */
  const M: nat := 5

  /** The registered ids of the test ring. */
  const Ids: set<nat> := {3, 7, 8, 12, 21, 27, 30}

  /** The first registered id at or after key, going clockwise. */
  function TestOwner(key: int): nat {
    if key <= 3 then 3
    else if key <= 7 then 7
    else if key <= 8 then 8
    else if key <= 12 then 12
    else if key <= 21 then 21
    else if key <= 27 then 27
    else if key <= 30 then 30
    else 3
  }

  /** TestOwner names the owner of every key of the 5-bit ring. */
  lemma TestOwnerOwns(key: int)
    requires 0 <= key < 32
    ensures IsOwner(Ids, key, TestOwner(key), 32)
  {
  }

  /** The registered id just before x, going counter-clockwise. */
  function TestPredecessor(x: nat): nat {
    if x <= 3 then 30
    else if x <= 7 then 3
    else if x <= 8 then 7
    else if x <= 12 then 8
    else if x <= 21 then 12
    else if x <= 27 then 21
    else 27
  }

  /** Node x of the converged test ring: each pointer names the owner of its start point. */
  function IdealNode(x: nat): NodeState {
    NodeState(x, M, Some(TestOwner(Start(x, 0, M))), Some(TestPredecessor(x)),
              seq(M, i requires 0 <= i => Some(TestOwner(Start(x, i, M)))), map[], 0, 0)
  }

  /** The test ring once every pointer is in place, with no information stored yet. */
  function IdealRing(): Ring {
    map x | x in Ids :: IdealNode(x)
  }

  lemma Sizes()
    ensures Pow2(M) == 32
  {
  }

  /** Each registered id owns the point just after its predecessor. */
  lemma PredecessorPrecedes(x: nat)
    requires x in Ids
    ensures TestOwner(Start(TestPredecessor(x), 0, M)) == x
  {
    Sizes();
    assert Pow2(0) == 1;
    var p := TestPredecessor(x);
    assert Start(p, 0, M) == (p + 1) % 32;
  }

  /** Every node of IdealRing has the pointers Chord intends for it. */
  lemma IdealNodeIsIdeal(x: nat)
    requires x in IdealRing()
    ensures IdealPointers(IdealRing(), x, M)
  {
    Sizes();
    var ring := IdealRing();
    assert ring.Keys == Ids;
    var n := ring[x];
    forall i | 0 <= i < |n.fingers|
      ensures n.fingers[i].Some? && IsOwner(ring.Keys, Start(x, i, M), n.fingers[i].value, Pow2(M))
    {
      TestOwnerOwns(Start(x, i, M));
    }
    TestOwnerOwns(Start(x, 0, M));
    var p := TestPredecessor(x);
    PredecessorPrecedes(x);
    TestOwnerOwns(Start(p, 0, M));
  }

  /** IdealRing registers the seven test ids, each under its own id and with a full table. */
  lemma IdealRingRegistry()
    ensures IdealRing().Keys == Ids && Registry(IdealRing()) && IdsBelow(Ids, Pow2(M))
  {
    Sizes();
    var ring := IdealRing();
    forall x | x in ring
      ensures ring[x].id == x && WellFormed(ring[x])
    {
      assert ring[x] == IdealNode(x);
    }
  }

  /** The test ring as the maintenance rounds leave it is converged. */
  lemma IdealRingConverged()
    ensures Converged(IdealRing(), M)
  {
    IdealRingRegistry();
    forall x | x in IdealRing()
      ensures IdealPointers(IdealRing(), x, M)
    {
      IdealNodeIsIdeal(x);
    }
  }

  /** A converged test node as a literal record. */
  function Placed(id: nat, successor: nat, predecessor: nat, fingers: seq<Option<nat>>): NodeState {
    NodeState(id, M, Some(successor), Some(predecessor), fingers, map[], 0, 0)
  }

  // ------------------------------------------------------------ the test assertions

  /** test_find_successor: node 7 answers find_successor(9) with 12. */
  lemma SuccessorOfNineIsTwelve(fuel: nat)
    requires fuel >= 2
    ensures RingFindSuccessor(IdealRing(), 7, 9, fuel) == Ok(12)
  {
    IdealRingConverged();
    IdealRingRegistry();
    Sizes();
    var o := ConvergedLookup(IdealRing(), M, 7, 9, fuel);
    TestOwnerOwns(9);
    OwnerUnique(Ids, 9, o, 12, 32);
  }

  /** Node 12 of the converged ring: successor 21, predecessor 8, fingers 21, 21, 21, 21, 30. */
  lemma NodeTwelve()
    ensures IdealRing()[12] == Placed(12, 21, 8, [Some(21), Some(21), Some(21), Some(21), Some(30)])
  {
    TwelveStarts();
    var n := IdealNode(12);
    assert n.fingers == [Some(21), Some(21), Some(21), Some(21), Some(30)];
  }

  /** The start points 13, 14, 16, 20 and 28 of node 12. */
  lemma TwelveStarts()
    ensures Start(12, 0, M) == 13 && Start(12, 1, M) == 14 && Start(12, 2, M) == 16
    ensures Start(12, 3, M) == 20 && Start(12, 4, M) == 28
  {
    Sizes();
    assert Pow2(0) == 1 && Pow2(1) == 2 && Pow2(2) == 4 && Pow2(3) == 8 && Pow2(4) == 16;
  }

  /** test_closest_preceding_node: no finger of node 12 lies strictly inside (12, 17). */
  lemma ClosestBeforeSeventeenIsTwelve()
    ensures ClosestPrecedingNode(IdealRing()[12], 17) == 12
  {
    NodeTwelve();
  }

  /** Node 21 of the converged ring: successor 27, predecessor 12, fingers 27, 27, 27, 30, 7. */
  lemma NodeTwentyOne()
    ensures IdealRing()[21] == Placed(21, 27, 12, [Some(27), Some(27), Some(27), Some(30), Some(7)])
  {
    TwentyOneStarts();
    var n := IdealNode(21);
    assert n.fingers == [Some(27), Some(27), Some(27), Some(30), Some(7)];
  }

  /** The start points 22, 23, 25, 29 and 5 of node 21. */
  lemma TwentyOneStarts()
    ensures Start(21, 0, M) == 22 && Start(21, 1, M) == 23 && Start(21, 2, M) == 25
    ensures Start(21, 3, M) == 29 && Start(21, 4, M) == 5
  {
    Sizes();
    assert Pow2(0) == 1 && Pow2(1) == 2 && Pow2(2) == 4 && Pow2(3) == 8 && Pow2(4) == 16;
  }

  /** test_closest_preceding_node: from node 21, the last finger strictly before 30 is 27. */
  lemma ClosestBeforeThirtyIsTwentySeven()
    ensures ClosestPrecedingNode(IdealRing()[21], 30) == 27
  {
    NodeTwentyOne();
  }

  /** test_find_predecessor: 17 lies in (12, 21], so node 12 is its own answer. */
  lemma PredecessorOfSeventeenIsTwelve(fuel: nat)
    ensures RingFindPredecessor(IdealRing(), 12, 17, fuel) == Ok(12)
  {
    IdealRingRegistry();
    NodeTwelve();
  }

  /**
   * test_find_predecessor: 1 lies outside (21, 27], so node 21 asks about its closest
   * preceding finger for 1, which is 30, and answers 30 once that lookup returns.
   */
  lemma PredecessorOfOneIsThirty(fuel: nat)
    requires fuel >= 10
    ensures RingFindPredecessor(IdealRing(), 21, 1, fuel) == Ok(30)
  {
    IdealRingConverged();
    IdealRingRegistry();
    Sizes();
    ClosestBeforeOneIsThirty();
    assert InRange(1, 21, 27, false, true) == false by {
      NodeTwentyOne();
    }
    var c := LookupCandidate(IdealRing(), M, 21, 1);
    var o := ConvergedLookup(IdealRing(), M, 21, 30, fuel - 1);
    assert RingFindSuccessor(IdealRing(), 21, c, fuel - 1) == Ok(o);
  }

  /** From node 21, the last finger strictly inside (21, 1) is 30. */
  lemma ClosestBeforeOneIsThirty()
    ensures ClosestPrecedingNode(IdealRing()[21], 1) == 30
  {
    NodeTwentyOne();
  }

  /** test_node_has_info: nothing is stored under 14 at node 12 of the fresh converged ring. */
  lemma NothingStoredAtTwelve()
    ensures NodeHasInfo(IdealRing()[12], 14) == None
  {
    NodeTwelve();
  }

  /**
   * test_create_info and test_remove_info: node 21 owns 15, so create_info(15, "abc") on 21
   * stores the value there, and a later remove_info(15) on 21 takes it away again.
   */
  lemma CreateThenRemoveAtTwentyOne(fuel: nat)
    requires fuel > 32
    ensures NodeHasInfo(IdealRing()[21], 15) == None
    ensures RingCreateInfo(IdealRing(), 21, 15, "abc", fuel).Ok?
    ensures var (ring1, created) := RingCreateInfo(IdealRing(), 21, 15, "abc", fuel).value;
            && created && NodeHasInfo(ring1[21], 15) == Some("abc")
            && RingRemoveInfo(ring1, 21, 15, fuel).Ok?
            && var (ring2, removed) := RingRemoveInfo(ring1, 21, 15, fuel).value;
               removed && NodeHasInfo(ring2[21], 15) == None
  {
    var ring := IdealRing();
    IdealRingConverged();
    IdealRingRegistry();
    Sizes();
    TestOwnerOwns(15);
    CreateInfoStoresAtOwner(ring, M, 21, 21, 15, "abc", fuel);
    var ring1 := ring[21 := AddInformation(ring[21], 15, "abc")];
    ConvergedIgnoresPayload(ring, ring1, M);
    RemoveInfoAtOwner(ring1, M, 21, 15, fuel);
  }

  /** test_leaving_node: once 12 leaves, its neighbours 8 and 21 point at each other. */
  lemma TwelveLeaves()
    ensures RingLeave(IdealRing(), 12).Ok?
    ensures RingLeave(IdealRing(), 12).value[21].predecessor == Some(8)
    ensures RingLeave(IdealRing(), 12).value[8].successor == Some(21)
  {
    IdealRingRegistry();
    NodeTwelve();
    LeaveSplices(IdealRing(), 12, 8, 21);
  }

  // ------------------------------------------------------------------ test_join

  /** The five-slot table whose every slot names v. */
  function All(v: nat): seq<Option<nat>> {
    [Some(v), Some(v), Some(v), Some(v), Some(v)]
  }

  /** A test node with no information, as a literal record. */
  function Rec(id: nat, successor: nat, predecessor: nat, fingers: seq<Option<nat>>, stabilizations: nat, fingerFixes: nat): NodeState {
    NodeState(id, M, Some(successor), Some(predecessor), fingers, map[], stabilizations, fingerFixes)
  }

  /** The test network right after setUp: every node registered, none joined. */
  function FreshRing(): Ring {
    map x | x in Ids :: NewNode(x, M)
  }

  /** Step 1 of test_join: node 3 joins alone. */
  function JoinedThree(): Ring {
    FreshRing()[3 := Rec(3, 3, 3, All(3), 0, 0)]
  }

  lemma FreshRingRegistry()
    ensures FreshRing().Keys == Ids && Registry(FreshRing())
  {
  }

  lemma ThreeJoinsAlone(fuel: nat)
    ensures RingJoin(FreshRing(), 3, None, fuel) == Ok(JoinedThree())
  {
    FreshRingRegistry();
    assert JoinAlone(FreshRing()[3]) == Rec(3, 3, 3, All(3), 0, 0);
  }

  /** init_finger_table(3) on node 7 before the table is filled: 7 sits between 3 and 3. */
  function SevenTakesThree(): Ring {
    JoinedThree()[7 := Rec(7, 3, 3, [Some(3), None, None, None, None], 0, 0)][3 := Rec(3, 3, 7, All(3), 0, 0)]
  }

  /** A fresh node's table is five empty slots. */
  lemma FreshTable(x: nat)
    ensures NewNode(x, M).fingers == [None, None, None, None, None]
  {
  }

  lemma SevenAsksThree(fuel: nat)
    ensures Registry(JoinedThree())
    ensures RingFindSuccessor(JoinedThree(), 3, Start(7, 0, M), fuel) == Ok(3)
    ensures RingTakeSuccessor(JoinedThree(), 7, 3) == Ok(SevenTakesThree())
  {
    FreshRingRegistry();
    assert Registry(JoinedThree());
    FreshTable(7);
    var ring := JoinedThree();
    var n := ring[7];
    assert n == NewNode(7, M);
    var n1 := n.(fingers := n.fingers[0 := Some(3)], successor := Some(3));
    assert n1.(predecessor := Some(3)) == Rec(7, 3, 3, [Some(3), None, None, None, None], 0, 0);
    var ring1 := ring[7 := n1];
    assert GetPredecessor(ring1, Some(3)) == Ok(Some(3));
    var ring2 := ring1[7 := n1.(predecessor := Some(3))];
    assert ring2[3] == Rec(3, 3, 3, All(3), 0, 0);
    assert ring2[3 := Rec(3, 3, 7, All(3), 0, 0)] == SevenTakesThree();
  }

  /** Node 7 between 3 and 3 with the given table, while 3 already names 7 as predecessor. */
  function SevenWith(fingers: seq<Option<nat>>): Ring {
    JoinedThree()[3 := Rec(3, 3, 7, All(3), 0, 0)][7 := Rec(7, 3, 3, fingers, 0, 0)]
  }

  lemma SevenWithRegistry(fingers: seq<Option<nat>>)
    requires |fingers| == 5
    ensures Registry(SevenWith(fingers)) && SevenWith(fingers).Keys == Ids
  {
    PairRegistry(Rec(3, 3, 7, All(3), 0, 0), Rec(7, 3, 3, fingers, 0, 0));
  }

  /** The table of 7 after the fill loop has written slots 0 .. k. */
  function Filled(k: nat): seq<Option<nat>> {
    seq(5, j requires 0 <= j => if j <= k then Some(3) else None)
  }

  /** One pass of the fill loop of 7 whose start point lies in (7, 3): slot k is copied forward. */
  lemma SevenFillStep(k: nat, fuel: nat)
    requires k < 4
    ensures Registry(SevenWith(Filled(k)))
    ensures RingFillFingers(SevenWith(Filled(k)), 7, k, fuel) == RingFillFingers(SevenWith(Filled(k + 1)), 7, k + 1, fuel)
  {
    SevenStarts();
    SevenWithRegistry(Filled(k));
    FilledStep(k);
    FillRound(SevenWith(Filled(k)), 7, k, fuel, 3, Filled(k + 1));
    PairReplacesSeven(Rec(3, 3, 7, All(3), 0, 0), Rec(7, 3, 3, Filled(k), 0, 0), Rec(7, 3, 3, Filled(k + 1), 0, 0));
  }

  lemma FilledStep(k: nat)
    requires k < 4
    ensures |Filled(k)| == 5 && Filled(k)[k] == Some(3) && Filled(k)[k + 1 := Some(3)] == Filled(k + 1)
  {
  }

  /** One pass of the fill loop whose start point lies strictly inside (x, finger[i]): the finger is copied forward. */
  lemma FillRound(ring: Ring, x: nat, i: nat, fuel: nat, f: nat, next: seq<Option<nat>>)
    requires Registry(ring) && x in ring && i + 1 < ring[x].m && ring[x].fingers[i] == Some(f)
    requires InRange(Start(x, i + 1, ring[x].m), x, f, false, false)
    requires next == ring[x].fingers[i + 1 := Some(f)]
    ensures Registry(ring[x := ring[x].(fingers := next)])
    ensures RingFillFingers(ring, x, i, fuel) == RingFillFingers(ring[x := ring[x].(fingers := next)], x, i + 1, fuel)
  {
    PutKeepsRegistry(ring, x, ring[x].(fingers := next));
  }

  /** The start points 9, 11, 15 and 23 of node 7. */
  lemma SevenStarts()
    ensures Start(7, 1, M) == 9 && Start(7, 2, M) == 11 && Start(7, 3, M) == 15 && Start(7, 4, M) == 23
    ensures forall i | 1 <= i < 5 :: InRange(Start(7, i, M), 7, 3, false, false)
  {
    Sizes();
    assert Pow2(1) == 2 && Pow2(2) == 4 && Pow2(3) == 8 && Pow2(4) == 16;
    forall i | 1 <= i < 5
      ensures InRange(Start(7, i, M), 7, 3, false, false)
    {
      assert i == 1 || i == 2 || i == 3 || i == 4;
    }
  }

  /** Every later start point of 7 lies in (7, 3), so the loop copies slot 0 into each later slot. */
  lemma {:induction false} SevenFillsFrom(k: nat, fuel: nat)
    requires k <= 4
    ensures Registry(SevenWith(Filled(k)))
    ensures RingFillFingers(SevenWith(Filled(k)), 7, k, fuel) == Ok(SevenWith(All(3)))
    decreases 4 - k
  {
    if k == 4 {
      assert Filled(4) == All(3);
      SevenFillEnds(fuel);
    } else {
      SevenFillStep(k, fuel);
      SevenFillsFrom(k + 1, fuel);
    }
  }

  /** The ring after 7 took 3 as its successor, with the two updates in the order of SevenWith. */
  lemma SevenTakesThreeReordered()
    ensures SevenTakesThree() == SevenWith(Filled(0))
  {
    assert Filled(0) == [Some(3), None, None, None, None];
    UpdatesCommute(JoinedThree(), 7, Rec(7, 3, 3, Filled(0), 0, 0), 3, Rec(3, 3, 7, All(3), 0, 0));
  }

  /** The fill loop stops once the last slot is reached. */
  lemma SevenFillEnds(fuel: nat)
    ensures RingFillFingers(SevenWith(All(3)), 7, 4, fuel) == Ok(SevenWith(All(3)))
  {
    SevenWithRegistry(All(3));
  }

  /** Updates of two different nodes can be applied in either order. */
  lemma UpdatesCommute(ring: Ring, a: nat, u: NodeState, b: nat, v: NodeState)
    requires a != b
    ensures ring[a := u][b := v] == ring[b := v][a := u]
  {
  }

  /** Nodes 3 and 7 as given, every other node as setUp left it. */
  function Pair(three: NodeState, seven: NodeState): Ring {
    JoinedThree()[3 := three][7 := seven]
  }

  lemma PairRegistry(three: NodeState, seven: NodeState)
    requires three.id == 3 && three.m == M && WellFormed(three)
    requires seven.id == 7 && seven.m == M && WellFormed(seven)
    ensures Registry(Pair(three, seven)) && Pair(three, seven).Keys == Ids
  {
    JoinedThreeRegistry();
    PutKeepsRegistry(JoinedThree(), 3, three);
    PutKeepsRegistry(JoinedThree()[3 := three], 7, seven);
  }

  lemma JoinedThreeRegistry()
    ensures Registry(JoinedThree()) && JoinedThree().Keys == Ids
    ensures JoinedThree()[3].id == 3 && JoinedThree()[3].m == M && |JoinedThree()[3].fingers| == M
    ensures JoinedThree()[7] == NewNode(7, M)
  {
    FreshRingRegistry();
    PutKeepsRegistry(FreshRing(), 3, Rec(3, 3, 3, All(3), 0, 0));
  }

  /** Node 7 once init_finger_table(3) has filled its table. */
  function SevenJoined(): NodeState {
    Rec(7, 3, 3, All(3), 0, 0)
  }

  /** The closing notify of init_finger_table: 3 already has 7 as predecessor and keeps it. */
  lemma SevenNotifiesThree()
    ensures SevenWith(All(3)) == Pair(Rec(3, 3, 7, All(3), 0, 0), SevenJoined())
    ensures DeliverNotify(SevenWith(All(3)), Some(3), 7) == Ok(SevenWith(All(3)))
  {
    var ring := SevenWith(All(3));
    assert !AcceptsPredecessor(ring[3], 7);
    assert ring[3 := ring[3]] == ring;
  }

  /** init_finger_table(3) on node 7, from the ring in which 3 is alone. */
  lemma SevenInitFingerTable(fuel: nat)
    ensures Registry(JoinedThree())
    ensures RingInitFingerTable(JoinedThree(), 7, 3, fuel) == Ok(Pair(Rec(3, 3, 7, All(3), 0, 0), SevenJoined()))
  {
    SevenAsksThree(fuel);
    SevenTakesThreeReordered();
    SevenFillsFrom(0, fuel);
    SevenNotifiesThree();
  }

  /** The ring during update_others of 7: node 3 holds the table `fs`, node 7 is joined. */
  function UpdatingThree(fs: seq<Option<nat>>): Ring {
    Pair(Rec(3, 3, 7, fs, 0, 0), SevenJoined())
  }

  /** The five ids update_others of 7 looks up: (7 - 2^i) mod 32. */
  lemma SevenUpdateKeys()
    ensures Behind(7, 0, M) == 6 && Behind(7, 1, M) == 5 && Behind(7, 2, M) == 3
    ensures Behind(7, 3, M) == 31 && Behind(7, 4, M) == 23
  {
    Sizes();
    assert Pow2(0) == 1 && Pow2(1) == 2 && Pow2(2) == 4 && Pow2(3) == 8 && Pow2(4) == 16;
  }

  /** For rounds 0 and 1 the ids 6 and 5 lie outside (7, 3], and node 7 names its finger 3 as their predecessor. */
  lemma SevenNamesThree(ring: Ring, k: nat, fuel: nat)
    requires Registry(ring) && 7 in ring && ring[7] == SevenJoined() && fuel >= 1 && k < 2
    ensures RingFindPredecessor(ring, 7, Behind(7, k, M), fuel) == Ok(3)
  {
    SevenUpdateKeys();
    var key := Behind(7, k, M);
    assert key == 6 || key == 5;
    assert ClosestPrecedingNode(SevenJoined(), key) == 3;
    assert FindPredecessorStep(SevenJoined(), key) == NeedsSuccessorOf(3);
  }

  /** For rounds 2 .. 4 the ids 3, 31 and 23 lie in (7, 3], and node 7 is their predecessor itself. */
  lemma SevenNamesItself(ring: Ring, k: nat, fuel: nat)
    requires Registry(ring) && 7 in ring && ring[7] == SevenJoined() && 2 <= k < 5
    ensures RingFindPredecessor(ring, 7, Behind(7, k, M), fuel) == Ok(7)
  {
    SevenUpdateKeys();
    var key := Behind(7, k, M);
    assert key == 3 || key == 31 || key == 23;
    assert FindPredecessorStep(SevenJoined(), key) == Settled(7);
  }

  /** update_finger_table(7, i) reaching 7 itself: 3 is not strictly inside (7, 3), nothing changes. */
  lemma SevenKeepsSlot(ring: Ring, i: nat, fuel: nat)
    requires Registry(ring) && 7 in ring && ring[7] == SevenJoined() && i < 5
    ensures RingUpdateFingerTable(ring, 7, 7, i, fuel) == Ok(ring)
  {
    assert UpdateFinger(SevenJoined(), 7, i) == (SevenJoined(), None);
    assert ring[7 := SevenJoined()] == ring;
  }

  /** update_finger_table(7, i) on 3 for i < 2: 7 lies in (3, 3), so slot i becomes 7 and 7 is told. */
  lemma ThreeTakesSeven(ring: Ring, fs: seq<Option<nat>>, i: nat, next: seq<Option<nat>>, fuel: nat)
    requires Registry(ring) && 3 in ring && 7 in ring && ring[3] == Rec(3, 3, 7, fs, 0, 0) && ring[7] == SevenJoined()
    requires |fs| == 5 && i < 2 && fs[i] == Some(3) && next == fs[i := Some(7)] && fuel >= 1
    ensures RingUpdateFingerTable(ring, 3, 7, i, fuel) == Ok(ring[3 := Rec(3, 3, 7, next, 0, 0)])
  {
    ThreeImproves(fs, i, next);
    UpdateIsForwarded(ring, 3, 7, i, fuel, Rec(3, 3, 7, next, 0, 0), 7);
    SevenKeepsSlot(ring[3 := Rec(3, 3, 7, next, 0, 0)], i, fuel - 1);
  }

  /** Writing node 3 of a pair ring. */
  lemma PairReplacesThree(three: NodeState, seven: NodeState, three': NodeState)
    ensures Pair(three, seven)[3 := three'] == Pair(three', seven)
  {
    UpdatesCommute(JoinedThree()[3 := three], 3, three', 7, seven);
  }

  /** Writing node 7 of a pair ring. */
  lemma PairReplacesSeven(three: NodeState, seven: NodeState, seven': NodeState)
    ensures Pair(three, seven)[7 := seven'] == Pair(three, seven')
  {
  }

  /** update_finger_table that changes node t hands the same update to t's predecessor p. */
  lemma UpdateIsForwarded(ring: Ring, t: nat, s: nat, i: nat, fuel: nat, n1: NodeState, p: nat)
    requires Registry(ring) && t in ring && i < |ring[t].fingers| && fuel >= 1
    requires UpdateFinger(ring[t], s, i) == (n1, Some(p))
    ensures Registry(ring[t := n1])
    ensures RingUpdateFingerTable(ring, t, s, i, fuel) == RingUpdateFingerTable(ring[t := n1], p, s, i, fuel - 1)
  {
    PutKeepsRegistry(ring, t, n1);
  }

  /** Slot i < 2 of node 3 still names 3, and 7 lies strictly inside (3, 3). */
  lemma ThreeImproves(fs: seq<Option<nat>>, i: nat, next: seq<Option<nat>>)
    requires |fs| == 5 && i < 2 && fs[i] == Some(3) && next == fs[i := Some(7)]
    ensures UpdateFinger(Rec(3, 3, 7, fs, 0, 0), 7, i) == (Rec(3, 3, 7, next, 0, 0), Some(7))
  {
  }

  /** The table of 3 once update_others of 7 has finished rounds 0 .. k - 1 (only the first two change it). */
  function ThreeTable(k: nat): seq<Option<nat>> {
    seq(5, j requires 0 <= j => if j < k && j < 2 then Some(7) else Some(3))
  }

  lemma ThreeTableStep(k: nat)
    requires k < 2
    ensures |ThreeTable(k)| == 5 && ThreeTable(k)[k] == Some(3) && ThreeTable(k)[k := Some(7)] == ThreeTable(k + 1)
  {
  }

  /** Rounds k < 2 of update_others on 7: the predecessor of 6 and of 5 is 3, which takes 7. */
  lemma UpdateOthersLow(ring: Ring, k: nat, fuel: nat)
    requires Registry(ring) && 3 in ring && 7 in ring && fuel >= 1 && k < 2
    requires ring[3] == Rec(3, 3, 7, ThreeTable(k), 0, 0) && ring[7] == SevenJoined()
    ensures Registry(ring[3 := Rec(3, 3, 7, ThreeTable(k + 1), 0, 0)])
    ensures RingUpdateOthers(ring, 7, k, fuel) == RingUpdateOthers(ring[3 := Rec(3, 3, 7, ThreeTable(k + 1), 0, 0)], 7, k + 1, fuel)
  {
    SevenNamesThree(ring, k, fuel);
    ThreeTableStep(k);
    ThreeTakesSeven(ring, ThreeTable(k), k, ThreeTable(k + 1), fuel);
    PutKeepsRegistry(ring, 3, Rec(3, 3, 7, ThreeTable(k + 1), 0, 0));
    UpdateOthersRound(ring, 7, k, fuel, 3, ring[3 := Rec(3, 3, 7, ThreeTable(k + 1), 0, 0)]);
  }

  /** Rounds 2 .. 4 of update_others on 7: the ids 3, 31 and 23 have 7 as predecessor, which keeps its table. */
  lemma UpdateOthersHigh(ring: Ring, i: nat, fuel: nat)
    requires Registry(ring) && 7 in ring && ring[7] == SevenJoined() && 2 <= i < 5
    ensures RingUpdateOthers(ring, 7, i, fuel) == RingUpdateOthers(ring, 7, i + 1, fuel)
  {
    SevenNamesItself(ring, i, fuel);
    SevenKeepsSlot(ring, i, fuel);
    UpdateOthersRound(ring, 7, i, fuel, 7, ring);
  }

  /** update_others() of 7 from round k: only slots 0 and 1 of node 3 become 7. */
  lemma {:induction false} SevenUpdatesFrom(ring: Ring, k: nat, fuel: nat)
    requires Registry(ring) && 3 in ring && 7 in ring && fuel >= 1 && k <= 5
    requires ring[3] == Rec(3, 3, 7, ThreeTable(k), 0, 0) && ring[7] == SevenJoined()
    ensures RingUpdateOthers(ring, 7, k, fuel) == Ok(ring[3 := Rec(3, 3, 7, ThreeTable(2), 0, 0)])
    decreases 5 - k
  {
    if k == 5 {
      UpdateOthersDone(ring, fuel);
      assert ThreeTable(5) == ThreeTable(2);
      PutSame(ring, 3, ring[3]);
    } else if k < 2 {
      UpdateOthersLow(ring, k, fuel);
      SevenUpdatesFrom(ring[3 := Rec(3, 3, 7, ThreeTable(k + 1), 0, 0)], k + 1, fuel);
      PutTwice(ring, 3, Rec(3, 3, 7, ThreeTable(k + 1), 0, 0), Rec(3, 3, 7, ThreeTable(2), 0, 0));
    } else {
      UpdateOthersHigh(ring, k, fuel);
      assert ThreeTable(k + 1) == ThreeTable(k);
      SevenUpdatesFrom(ring, k + 1, fuel);
    }
  }

  /** Writing a node's own record back changes nothing. */
  lemma PutSame(ring: Ring, x: nat, n: NodeState)
    requires x in ring && ring[x] == n
    ensures ring[x := n] == ring
  {
  }

  /** The second of two writes to the same node wins. */
  lemma PutTwice(ring: Ring, x: nat, a: NodeState, b: NodeState)
    ensures ring[x := a][x := b] == ring[x := b]
  {
  }

  /** update_others stops after slot m - 1. */
  lemma UpdateOthersDone(ring: Ring, fuel: nat)
    requires Registry(ring) && 7 in ring && ring[7].m == M
    ensures RingUpdateOthers(ring, 7, 5, fuel) == Ok(ring)
  {
  }

  /** The ring right after 7.join(3): 3 points at 7 from slots 0 and 1, 7 points at 3 everywhere. */
  function JoinedSeven(): Ring {
    Pair(Rec(3, 3, 7, ThreeTable(2), 0, 0), SevenJoined())
  }

  /** 7.join(3) in test_join: init_finger_table, then update_others. */
  lemma SevenJoinsThree(fuel: nat)
    requires fuel >= 1
    ensures Registry(JoinedThree()) && 7 in JoinedThree()
    ensures RingJoin(JoinedThree(), 7, Some(3), fuel) == Ok(JoinedSeven())
  {
    FreshRingRegistry();
    SevenInitFingerTable(fuel);
    var ring1 := Pair(Rec(3, 3, 7, All(3), 0, 0), SevenJoined());
    PairRegistry(Rec(3, 3, 7, All(3), 0, 0), SevenJoined());
    assert ThreeTable(0) == All(3);
    SevenUpdatesFrom(ring1, 0, fuel);
    PairReplacesThree(Rec(3, 3, 7, All(3), 0, 0), SevenJoined(), Rec(3, 3, 7, ThreeTable(2), 0, 0));
  }

  // --------------------------------------------------- test_join: maintenance

  /** A table of m slots that all name x. */
  function Selfs(x: nat, m: nat): seq<Option<nat>> {
    seq(m, _ => Some(x))
  }

  /** The table fs with its first i slots overwritten by x. */
  function Overwritten(x: nat, fs: seq<Option<nat>>, i: nat): seq<Option<nat>> {
    seq(|fs|, j requires 0 <= j < |fs| => if j < i then Some(x) else fs[j])
  }

  lemma OverwriteOneMore(x: nat, fs: seq<Option<nat>>, i: nat)
    requires i < |fs|
    ensures Overwritten(x, fs, i)[i := Some(x)] == Overwritten(x, fs, i + 1)
    ensures Overwritten(x, fs, |fs|) == Selfs(x, |fs|)
  {
  }

  /** A node that is its own successor answers every lookup itself, so fix_fingers fills its table with itself. */
  lemma {:induction false} SelfSuccessorFixesFrom(ring: Ring, x: nat, fs: seq<Option<nat>>, i: nat, fuel: nat)
    requires Registry(ring) && x in ring && ring[x].successor == Some(x) && i <= |fs| == ring[x].m
    requires ring[x].fingers == Overwritten(x, fs, i)
    ensures RingFixFrom(ring, x, i, fuel).Ok?
    ensures RingFixFrom(ring, x, i, fuel).value[x].fingers == Selfs(x, |fs|)
    decreases |fs| - i
  {
    if i == |fs| {
      OverwriteOneMore(x, fs + [None], i);
      assert Overwritten(x, fs, i) == Selfs(x, |fs|);
    } else {
      OverwriteOneMore(x, fs, i);
      SelfSuccessorFixStep(ring, x, i, Overwritten(x, fs, i + 1), fuel);
      SelfSuccessorFixesFrom(ring[x := ring[x].(fingers := Overwritten(x, fs, i + 1))], x, fs, i + 1, fuel);
    }
  }

  /** One slot of fix_fingers on a node that is its own successor: the slot becomes the node. */
  lemma SelfSuccessorFixStep(ring: Ring, x: nat, i: nat, next: seq<Option<nat>>, fuel: nat)
    requires Registry(ring) && x in ring && ring[x].successor == Some(x) && i < ring[x].m
    requires next == ring[x].fingers[i := Some(x)]
    ensures Registry(ring[x := ring[x].(fingers := next)])
    ensures RingFixFrom(ring, x, i, fuel) == RingFixFrom(ring[x := ring[x].(fingers := next)], x, i + 1, fuel)
  {
    var n := ring[x];
    var n1 := n.(fingers := next);
    assert FixFinger(n, i, AsReply(RingFindSuccessor(ring, x, Start(x, i, n.m), fuel))) == Ok(n1);
    PutKeepsRegistry(ring, x, n1);
  }

  /** Every start point of 7 lies in (7, 3]. */
  lemma SevenStartsReachThree()
    ensures forall i | 0 <= i < 5 :: InRange(Start(7, i, M), 7, 3, false, true)
  {
    Sizes();
    assert Pow2(0) == 1 && Pow2(1) == 2 && Pow2(2) == 4 && Pow2(3) == 8 && Pow2(4) == 16;
    forall i | 0 <= i < 5
      ensures InRange(Start(7, i, M), 7, 3, false, true)
    {
      assert i == 0 || i == 1 || i == 2 || i == 3 || i == 4;
    }
  }

  /** fix_fingers on 7 with successor 3: every start point lies in (7, 3], so each lookup answers 3 again. */
  lemma {:induction false} SevenFixesFrom(ring: Ring, i: nat, fuel: nat)
    requires Registry(ring) && 7 in ring && ring[7].id == 7 && ring[7].successor == Some(3)
    requires ring[7].m == M && ring[7].fingers == All(3) && i <= 5
    ensures RingFixFrom(ring, 7, i, fuel) == Ok(ring)
    decreases 5 - i
  {
    if i < 5 {
      SevenStartsReachThree();
      var n := ring[7];
      assert n.fingers[i := Some(3)] == n.fingers;
      assert FixFinger(n, i, AsReply(RingFindSuccessor(ring, 7, Start(7, i, M), fuel))) == Ok(n);
      PutSame(ring, 7, n);
      SevenFixesFrom(ring, i + 1, fuel);
    }
  }

  /** After 3.fix_fingers(): 3 answered every lookup itself. */
  function ThreeFixed(): Ring {
    Pair(Rec(3, 3, 7, All(3), 0, 1), SevenJoined())
  }

  /** After 3.stabilize(): 3 adopted its predecessor 7 as successor. */
  function ThreeStabilized(): Ring {
    Pair(Rec(3, 7, 7, All(3), 1, 1), SevenJoined())
  }

  /** After 7.fix_fingers(): the table of 7 was already right. */
  function SevenFixed(): Ring {
    Pair(Rec(3, 7, 7, All(3), 1, 1), Rec(7, 3, 3, All(3), 0, 1))
  }

  /** After 7.stabilize(): the two-node ring of test_join. */
  function SevenStabilized(): Ring {
    Pair(Rec(3, 7, 7, All(3), 1, 1), Rec(7, 3, 3, All(3), 1, 1))
  }

  /** 3.fix_fingers() right after 7 joined: 3 is still its own successor, so every slot names 3 again. */
  lemma ThreeFixesFingers(fuel: nat)
    ensures Registry(JoinedSeven()) && 3 in JoinedSeven()
    ensures RingFixFingers(JoinedSeven(), 3, fuel) == Ok(ThreeFixed())
  {
    var n3 := Rec(3, 3, 7, ThreeTable(2), 0, 0);
    PairRegistry(n3, SevenJoined());
    var ring := JoinedSeven();
    var n := n3.(fingerFixes := 1);
    PutKeepsRegistry(ring, 3, n);
    assert Overwritten(3, ThreeTable(2), 0) == ThreeTable(2);
    SelfSuccessorFixesFrom(ring[3 := n], 3, ThreeTable(2), 0, fuel);
    assert Selfs(3, 5) == All(3);
    PairReplacesThree(n3, SevenJoined(), Rec(3, 3, 7, All(3), 0, 1));
  }

  /** The first half of 3.stabilize(): 7 lies in (3, 3], so 3 adopts it and notifies it, which changes nothing. */
  lemma ThreeAdoptsSeven(ring: Ring)
    requires Registry(ring) && 3 in ring && 7 in ring
    requires ring[3] == Rec(3, 3, 7, All(3), 0, 1) && ring[7] == SevenJoined()
    ensures RingAdoptAndNotify(ring, 3) == Ok(ring[3 := Rec(3, 7, 7, All(3), 1, 1)])
  {
    var n1 := Rec(3, 7, 7, All(3), 1, 1);
    assert AdoptSuccessor(ring[3].(stabilizations := 1), Some(7)) == Ok(n1);
    PutKeepsRegistry(ring, 3, n1);
    assert !AcceptsPredecessor(SevenJoined(), 3);
    PutSame(ring[3 := n1], 7, SevenJoined());
  }

  /** 3.stabilize() after its fix_fingers. */
  lemma ThreeStabilizes()
    ensures Registry(ThreeFixed()) && 3 in ThreeFixed()
    ensures RingStabilize(ThreeFixed(), 3) == Ok(ThreeStabilized())
  {
    PairRegistry(Rec(3, 3, 7, All(3), 0, 1), SevenJoined());
    ThreeAdoptsSeven(ThreeFixed());
    PairReplacesThree(Rec(3, 3, 7, All(3), 0, 1), SevenJoined(), Rec(3, 7, 7, All(3), 1, 1));
    StabilizeKeepsLivePredecessor(ThreeFixed(), 3, ThreeStabilized());
  }

  /** 7.fix_fingers(): every lookup answers 3, which every slot already names. */
  lemma SevenFixesFingers(fuel: nat)
    ensures Registry(ThreeStabilized()) && 7 in ThreeStabilized()
    ensures RingFixFingers(ThreeStabilized(), 7, fuel) == Ok(SevenFixed())
  {
    PairRegistry(Rec(3, 7, 7, All(3), 1, 1), SevenJoined());
    PairRegistry(Rec(3, 7, 7, All(3), 1, 1), Rec(7, 3, 3, All(3), 0, 1));
    PairReplacesSeven(Rec(3, 7, 7, All(3), 1, 1), SevenJoined(), Rec(7, 3, 3, All(3), 0, 1));
    SevenFixesFrom(SevenFixed(), 0, fuel);
  }

  /** The first half of 7.stabilize(): 3 reports 7 itself, which is not in (7, 3]; the notify changes nothing. */
  lemma SevenKeepsThree(ring: Ring)
    requires Registry(ring) && 3 in ring && 7 in ring
    requires ring[3] == Rec(3, 7, 7, All(3), 1, 1) && ring[7] == Rec(7, 3, 3, All(3), 0, 1)
    ensures RingAdoptAndNotify(ring, 7) == Ok(ring[7 := Rec(7, 3, 3, All(3), 1, 1)])
  {
    var n1 := Rec(7, 3, 3, All(3), 1, 1);
    assert AdoptSuccessor(ring[7].(stabilizations := 1), Some(7)) == Ok(n1);
    PutKeepsRegistry(ring, 7, n1);
    assert !AcceptsPredecessor(ring[3], 7);
    PutSame(ring[7 := n1], 3, ring[3]);
  }

  /** 7.stabilize() after its fix_fingers. */
  lemma SevenStabilizes()
    ensures Registry(SevenFixed()) && 7 in SevenFixed()
    ensures RingStabilize(SevenFixed(), 7) == Ok(SevenStabilized())
  {
    PairRegistry(Rec(3, 7, 7, All(3), 1, 1), Rec(7, 3, 3, All(3), 0, 1));
    SevenKeepsThree(SevenFixed());
    PairReplacesSeven(Rec(3, 7, 7, All(3), 1, 1), Rec(7, 3, 3, All(3), 0, 1), Rec(7, 3, 3, All(3), 1, 1));
    StabilizeKeepsLivePredecessor(SevenFixed(), 7, SevenStabilized());
  }

  /**
   * test_join: 3 joins alone, 7 joins through 3, then 3 and 7 each run fix_fingers and
   * stabilize once. Every call succeeds, and the two nodes end as each other's successor
   * and predecessor.
   */
  lemma TestJoin(fuel: nat)
    requires fuel >= 1
    ensures Registry(FreshRing()) && 3 in FreshRing()
    ensures RingJoin(FreshRing(), 3, None, fuel) == Ok(JoinedThree())
    ensures JoinedThree()[3].successor == Some(3) && JoinedThree()[3].predecessor == Some(3)
    ensures Registry(JoinedThree()) && 7 in JoinedThree()
    ensures RingJoin(JoinedThree(), 7, Some(3), fuel) == Ok(JoinedSeven())
    ensures Registry(JoinedSeven()) && 3 in JoinedSeven()
    ensures RingFixFingers(JoinedSeven(), 3, fuel) == Ok(ThreeFixed())
    ensures Registry(ThreeFixed()) && 3 in ThreeFixed()
    ensures RingStabilize(ThreeFixed(), 3) == Ok(ThreeStabilized())
    ensures Registry(ThreeStabilized()) && 7 in ThreeStabilized()
    ensures RingFixFingers(ThreeStabilized(), 7, fuel) == Ok(SevenFixed())
    ensures Registry(SevenFixed()) && 7 in SevenFixed()
    ensures RingStabilize(SevenFixed(), 7) == Ok(SevenStabilized())
    ensures SevenStabilized()[7].successor == Some(3) && SevenStabilized()[7].predecessor == Some(3)
    ensures SevenStabilized()[3].successor == Some(7) && SevenStabilized()[3].predecessor == Some(7)
  {
    FreshRingRegistry();
    ThreeJoinsAlone(fuel);
    SevenJoinsThree(fuel);
    ThreeFixesFingers(fuel);
    ThreeStabilizes();
    SevenFixesFingers(fuel);
    SevenStabilizes();
  }
}

=== FILE: wrappers.dfy ===
/** Optional values, and results with an error; a `Result` can be used with `:-`. */
module Wrappers {

  /** A value that may be missing; the model's reading of Python's `None`. */
  datatype Option<+T> = None | Some(value: T)

  /** The outcome of a step that may fail with an error of type E. */
  datatype Result<+T, +E> = Ok(value: T) | Err(error: E) {

    predicate IsFailure() {
      Err?
    }

    function PropagateFailure<U>(): Result<U, E>
      requires Err?
    {
      Err(error)
    }

    function Extract(): T
      requires Ok?
    {
      value
    }
  }
}
